=== FILE: README.md ===
# MCPilot state core in Dafny

MCPilot is a dashboard for the MCP servers a user has configured. Its core keeps two documents in step:

- the MCP configuration document, `{ "mcpServers": { <name>: { command, args, env, cwd, disabled } } }`;
- the dashboard's metadata document, which holds the application settings, per-server display data, per-server tool lists and saved profiles.

The core has four parts:

- **Data model.** Each server has a name, a launch command, enabled/expanded flags and a tool list kept sorted by name. A profile is a named snapshot of which servers are enabled and which are disabled. The application state holds the servers, the profiles, the theme, the context utilisation and the active profile.
- **State manager.** It rebuilds the state from the two documents. It changes the state through name-keyed commands: toggle a server, expand a server, apply/save/delete a profile, replace a server's tools, set the theme or the utilisation. Each successful command notifies every subscribed listener once. The manager also writes the state back into the two documents.
- **Structural check.** This check gates every write of the configuration document.
- **Default metadata document.** This is used when no metadata is stored.

The model is functional:

- Every command is a function from a `Manager` to a new `Manager`, paired with the command's return value.
- Listeners are known by identity. A notification appends the event to `emitted`, and one `Delivery` per subscribed listener, in subscription order, to `delivered`.
- Timestamps (`new Date().toISOString()`) are string parameters named `now`, `saved` or `used`.

Modules:

| file | module | contents |
|---|---|---|
| wrappers.dfy | Wrappers | `Option` |
| order.dfy | Order | the name order used for sorting, and ascending enumeration of a map's keys |
| documents.dfy | Documents | parsed JSON values, the typed configuration and metadata documents, JavaScript `\|\|` defaults |
| validation.dfy | Validation | `validateMcpConfig`, `createDefaultMetadata` |
| models.dfy | Models | `Server`, `Tool`, `Profile`, `AppState` and their methods |
| coordinator.dfy | Coordinator | the state manager: loading, commands, notification, export |
| properties.dfy | Properties | properties that relate several commands |
| roundtrip.dfy | RoundTrip | export followed by load gives back the state |

## Model

| member | source | states |
|---|---|---|
| Models.NewServer | scripts/models.js:10-21 | Present args and env are copied, and missing ones become `[]` and `{}`. A non-empty cwd is copied and a missing or empty one becomes null. The server is disabled exactly when the entry says `disabled: true`. A non-empty description is copied and any other becomes `''`. Each display flag is set exactly when the metadata says `true`. The tool list starts empty. |
| Models.IsEnabled | scripts/models.js:27-29 | A server is enabled exactly when its `disabled` flag is off. |
| Models.Toggle | scripts/models.js:27-36 | Toggling inverts `isEnabled` and changes no other field. |
| Models.ToggleTwice | scripts/models.js:34-36 | Toggling twice gives back the original server. |
| Models.CommandString | scripts/models.js:42-44 | The display command is a slice of the command, a space and the space-joined arguments, with only whitespace cut off on either side. It never starts or ends with JavaScript whitespace. |
| Models.CommandStringUntrimmed | scripts/models.js:42-44 | When the command has no surrounding whitespace and the last argument does not end in whitespace, nothing but the separator is lost: the display command is the command alone without arguments, and otherwise the command, a space and the joined arguments. |
| Models.Trim | scripts/models.js:43 | `trim` returns a contiguous slice of its input. Only whitespace is cut on either side, and the result starts and ends with a non-space. |
| Models.ToMcpConfig | scripts/models.js:50-69 | The configuration entry always carries command and args. It carries env only when non-empty, cwd only when set and non-empty, and `disabled` only as `true`, exactly when the server is disabled. |
| Models.ServerRoundTrip | scripts/models.js:10-21 | Constructing a server from its own `toMcpConfig` and `toMetadata` output restores every field except the tools. |
| Models.ToServerMeta | scripts/models.js:75-82 | The metadata entry always carries the server's description, both display flags and the query time. The constructor's `||` defaults read them back unchanged. |
| Models.NewTool | scripts/models.js:90-94 | A tool keeps its name and owning server. A non-empty description is kept, and a missing or empty one becomes `''`. |
| Models.ToolEnabled | scripts/models.js:101-103 | A tool is enabled exactly when its server exists and is enabled. |
| Models.ToolToMeta | scripts/models.js:109-113 | A tool's metadata entry always carries a description, which the constructor's `|| ''` reads back unchanged. |
| Models.SortTools | scripts/stateManager.js:231 | Sorting by name gives a name-ordered permutation of the input. Tools of the same name keep their input order, because the sort is stable. |
| Models.InsertToolNamed | scripts/stateManager.js:231 | Inserting a tool appends it after the tools of its own name. Tools of other names are unaffected. |
| Models.NewProfile | scripts/models.js:121-128 | A non-empty description is kept and any other becomes `''`. Present lists are kept and missing lists become `[]`. `createdAt` is the creation time and `lastUsed` is null. |
| Models.MarkUsed | scripts/models.js:133-135 | Marking a profile as used sets `lastUsed` and nothing else. |
| Models.ProfileToMeta | scripts/models.js:141-149 | The entry always carries the profile's description, both server lists and both timestamps as they are. `|| ''` reads the description back unchanged. |
| Models.ProfileFromMeta | scripts/models.js:157-167 | A non-empty description is kept and any other becomes `''`. Present lists are kept and missing lists become `[]`. Both timestamps are copied verbatim. |
| Models.ProfileRoundTrip | scripts/models.js:141-167 | `fromMetadata(p.name, p.toMetadata())` restores `p`. |
| Models.EmptyStateDefaults | scripts/models.js:175-182 | A new application state is consistent and has no servers, profiles or tools. All statistics are zero, both configuration lists are empty, the theme is light and no profile is active. |
| Models.GetStatistics | scripts/models.js:188-203 | `total` is the number of servers. `enabled` and `disabled` are the sizes of the enabled and disabled server sets and add up to `total`. `totalTools` equals an order-independent sum of the tool-list lengths. |
| Models.SumToolsIsTotal | scripts/models.js:193-194 | The left-to-right `reduce` along any enumeration of the servers without repeats equals the order-independent sum. |
| Models.CountEnabledIsCardinality | scripts/models.js:190-191 | The `filter(...).length` count along any enumeration without repeats equals the size of the set of enabled servers. |
| Models.GetCurrentConfiguration | scripts/models.js:209-222 | A name is in `enabled` exactly when it names an enabled server, and in `disabled` exactly when it names a disabled one. Both lists are in ascending order without repeats. |
| Models.ApplyProfile | scripts/models.js:228-247 | A server listed as disabled ends up disabled. Otherwise a server listed as enabled ends up enabled, and every other server is unchanged. Unknown names are ignored. The profile becomes active and is marked used. |
| Models.SetDisabled | scripts/models.js:230-243 | Each `forEach` pass sets the flag on exactly the listed servers that exist and leaves the others unchanged. |
| Models.ServersAlphabetically | scripts/models.js:253-256 | Every stored server appears, and only stored servers appear. The list has one entry per key and is strictly ordered by name in a consistent state. |
| Models.ProfilesAlphabetically | scripts/models.js:262-265 | The same holds for profiles. |
| Models.GetServer | scripts/models.js:280-282 | A server is found exactly when one is stored under that name, and it is that server. |
| Models.GetProfile | scripts/models.js:297-299 | A profile is found exactly when one is stored under that name, and it is that profile. |
| Models.SetServer | scripts/models.js:271-282 | After `setServer`, `getServer` finds the server under its name. Every other name and field is unchanged. |
| Models.SetProfile | scripts/models.js:288-299 | After `setProfile`, `getProfile` finds the profile under its name. Nothing else changes. |
| Models.DeleteProfile | scripts/models.js:305-310 | Only that key is removed. The active profile is cleared exactly when it was the deleted one. |
| Models.Clear | scripts/models.js:315-320 | Servers, profiles and the active profile are emptied. Theme and utilisation are kept. |
| Coordinator.Notify | scripts/stateManager.js:290-298 | Each current listener receives the event exactly once, in subscription order, and the state is unchanged. |
| Coordinator.InitialManager | scripts/stateManager.js:8-11 | A new state manager holds a new, consistent application state with no servers and no profiles, zero statistics, a light theme and no active profile. It has no listeners and has announced nothing. |
| Coordinator.Subscribe | scripts/stateManager.js:273-274 | The listener is appended at the end. Nothing else changes. |
| Coordinator.Unsubscribe | scripts/stateManager.js:277-282 | The first occurrence of the listener is removed, if there is one. Otherwise nothing changes. |
| Coordinator.LoadState | scripts/stateManager.js:18-58 | The loaded state is consistent, with one server per configuration entry. Each server is built from its entry and its metadata. Its tools are exactly the tools built from that server's tool entries, descriptions included, ascending by name. There is one profile per profile entry. Settings come from the application section when present. Without it the theme and utilisation are kept and there is no active profile. |
| Coordinator.BuildTools | scripts/stateManager.js:36-43 | The tool names are exactly the keys of the tools section, strictly ascending. Each tool is constructed from its entry. |
| Coordinator.LoadFromFiles | scripts/stateManager.js:18-62 | The state is replaced wholesale and `load` is announced once. |
| Coordinator.ToggleServer | scripts/stateManager.js:69-79 | For a known server, the flag is flipped, the flipped server is returned and `server-toggle` is announced with the new state. For an unknown name, nothing changes and null is returned. |
| Coordinator.ToggleServerExpanded | scripts/stateManager.js:86-96 | The flag is flipped and its new value returned. An unknown name returns false and changes nothing. |
| Coordinator.ToggleToolsExpanded | scripts/stateManager.js:103-113 | The same holds for the tools-expanded flag. |
| Coordinator.UpdateTheme | scripts/stateManager.js:128-134 | The theme is stored as given and announced. |
| Coordinator.UpdateContextUtilization | scripts/stateManager.js:140-146 | The value is stored unclamped and announced. |
| Coordinator.ApplyProfile | scripts/stateManager.js:153-163 | For a known profile, the servers follow the profile with disabled winning. The stored profile is marked used and becomes active, and true is returned. An unknown profile returns false and changes nothing. |
| Coordinator.SaveProfile | scripts/stateManager.js:171-177 | The new profile lists exactly the enabled servers as enabled and the disabled servers as disabled, each once and in ascending name order. It replaces any profile of that name and is announced. |
| Properties.SavedListsAreConfiguration | scripts/stateManager.js:171-177 | The saved profile's two lists are exactly the lists `getCurrentConfiguration` reports at that moment. |
| Coordinator.DeleteProfile | scripts/stateManager.js:184-194 | A known profile is removed and its active mark cleared, and true is returned. An unknown profile returns false and changes nothing. |
| Coordinator.UpdateServerDescription | scripts/stateManager.js:201-207 | Only that server's description changes. An unknown name is silently ignored. |
| Coordinator.UpdateServerTools | scripts/stateManager.js:214-234 | Only that server's tools change. They become a name-sorted permutation of the given tools, stable within each name. Unknown names change nothing. |
| Coordinator.ExportToMcpConfig | scripts/stateManager.js:304-312 | There is one entry per server: that server's `toMcpConfig`. |
| Coordinator.ToolsToMeta | scripts/stateManager.js:337-340 | The tools section has one key per distinct tool name. Under each name it holds the entry of the last tool of that name, because later tools overwrite earlier ones. |
| Coordinator.ExportToMetadata | scripts/stateManager.js:318-350 | The export holds the settings with the refresh time. Each server has its own metadata entry. A tools section, holding that server's tools, exists exactly for servers that have tools. Each profile has its own metadata entry. |
| Properties.UnknownNameIsNoOp | scripts/stateManager.js:69-234 | A command naming an absent server or profile changes nothing and announces nothing. |
| Properties.KnownCommandEmitsOnce | scripts/stateManager.js:69-234 | A command on an existing target announces exactly one event to every listener, in subscription order. |
| Properties.StepPreservesConsistency | scripts/models.js:271-310 | Every command keeps servers and profiles under their own names. Every server keeps its tools sorted and owned by that server. |
| Properties.ToggleServerTwice | scripts/stateManager.js:69-79 | Toggling a server twice restores the state. |
| Properties.ToggleStatistics | scripts/models.js:188-203 | A toggle keeps the total. The enabled count moves by one in the direction of the flip. |
| Properties.SaveThenApply | scripts/stateManager.js:153-177 | Applying a profile right after saving it changes no server and makes it active. |
| Properties.SaveToggleApply | scripts/stateManager.js:153-177 | A saved profile is a snapshot: after a toggle, applying it restores every server. |
| Properties.ApplyThenDelete | scripts/models.js:305-310 | Deleting the profile just applied leaves no active profile. |
| Properties.SubscribeThenUnsubscribe | scripts/stateManager.js:273-283 | Unsubscribing a fresh listener restores the listener list. |
| Properties.UnsubscribeRemovesFirst | scripts/stateManager.js:277-282 | For a listener subscribed twice, unsubscribing removes only its earlier occurrence. |
| Properties.LoadDefaultMetadata | scripts/fileManager.js:177-189 | Loading with the default metadata gives a light theme, zero utilisation, no active profile, no profiles, one server per entry with default display fields, and no tools. |
| Properties.DefaultIsFreshExport | scripts/fileManager.js:177-189 | The default metadata document is exactly what a new state manager exports. |
| Properties.LoadedStatistics | scripts/stateManager.js:18-47 | After a load, a server counts as disabled exactly when its entry says `disabled: true`. |
| Properties.ExportedConfigValid | scripts/fileManager.js:46-49 | The exported configuration passes the write-time check exactly when every server has a non-empty command. |
| Validation.Validate | scripts/fileManager.js:140-171 | The document is accepted exactly when it is well formed. It is rejected as not an object exactly when it is falsy or not of object type. It is rejected for its servers property exactly when that property is missing, falsy or not of object type. A reported bad server is the first failing entry, with its first broken rule. |
| Validation.ServerFault | scripts/fileManager.js:151-169 | An entry has no fault exactly when it satisfies all five property rules. Otherwise the reported field is the first rule it breaks, in the order command, args, env, cwd, disabled. |
| Validation.CreateDefaultMetadata | scripts/fileManager.js:177-189 | The default metadata has a light theme, the given refresh time, zero utilisation and no active profile, and empty servers, tools and profiles sections. |
| Validation.FirstFault | scripts/fileManager.js:150-170 | The entries pass exactly when every entry is well formed. Otherwise the reported entry is the first failing one, with every entry before it passing, and the reported field is its first broken rule. |
| Validation.EncodedConfigVerdict | scripts/fileManager.js:140-171 | A typed configuration document passes exactly when it has a servers section and every entry has a non-empty command and an args list. |
| Validation.EmptyServersAccepted | scripts/fileManager.js:140-147 | An empty servers object is accepted. A document without one, an array and null are each rejected with the right message. |
| RoundTrip.LoadExportRoundTrip | scripts/stateManager.js:18-62 | Loading the two exported documents gives back the exported state exactly, for any reloadable state. |
| RoundTrip.RebuildTools | scripts/stateManager.js:36-43 | A server's exported tools section, read back, rebuilds the same tool list. |
| RoundTrip.ExportedSections | scripts/stateManager.js:332-341 | Looking a server up in the exported metadata, as loading does, finds its own metadata entry and its own tools section, which is empty when it has no tools. |
| RoundTrip.ReloadIsStable | scripts/stateManager.js:304-350 | A reloaded state is again reloadable, and a second save-and-load changes nothing. |
| Order.AscendingUnique | scripts/models.js:253-256 | Two strictly ascending name lists with the same elements are identical, so a sorted view is unique. |
| Order.Ascend | scripts/stateManager.js:31 | Enumerating a map gives each key exactly once, in ascending order. |

## Left out

- File and browser I/O are not modelled: localStorage, file reading and writing, downloads and sample data. The documents are given as values.
- Clock readings (`new Date().toISOString()`) are parameters.
- Coordinator.ExportToMetadata takes one `now` for the whole export. It serves as `lastRefresh` and as every server's `lastQueried`. The JavaScript code reads the clock separately for each (scripts/stateManager.js:322 and scripts/models.js:80), so its timestamps may differ by the time the export takes.
- `updateMetadata`, and the raw `state.metadata` reference that `loadFromFiles`, `updateTheme` and `updateContextUtilization` also write, are not modelled. Nothing in the core reads that reference back.
- Listener exceptions are caught and logged by the JavaScript code. Listeners here cannot fail, and the log is not modelled.
- The event payloads' object shapes are not modelled. Each event carries the same fields as a datatype.
- `console.error` messages on unknown names are not modelled.
- `localeCompare` is replaced by code-point lexicographic order. Locale collation is not available to the model, and the proofs use only that it is a total order.
- JavaScript `Map` and `Object.entries` insertion order is not modelled. Every map is enumerated in ascending key order. Counts and sums do not depend on the order, since they agree along every enumeration without repeats.
- Models.GetCurrentConfiguration lists names in ascending order, where the JavaScript code lists them in insertion order.
- Validation.FirstFault reports the first failing server in ascending name order, where the JavaScript code uses insertion order. The verdict is the same.
- A `null` server entry makes the JavaScript code throw a TypeError. Validation.ServerFault reports it as a bad command.
- Numbers are modelled as integers. Fractional and NaN values of `contextUtilization` are not modelled.
- The typed documents give `command` the type string. An entry with a non-string command is not loaded by this model, although the JavaScript code would copy whatever value it finds.
- Coordinator.LoadState takes typed documents, so it does not model the crash path of a malformed metadata document. `readMetadata` returns `JSON.parse` output unchecked (scripts/fileManager.js:73). A `null` tool entry makes the description read at scripts/stateManager.js:38 throw, and a `null` profile entry makes the read at scripts/models.js:160 throw. Both throws happen after the state was cleared and some servers were already set, so the dashboard is left partly loaded and announces no `load` event. The typing excludes in the same way non-array profile lists and non-string args or env values.
- Coordinator.ExportToMcpConfig treats every name as an ordinary key. In the JavaScript code, assigning `mcpServers["__proto__"]` (scripts/stateManager.js:308) replaces the object's prototype instead of adding an entry, so a server of that name is lost when the document is serialised.
- Coordinator.ExportToMetadata likewise exports servers, tools and profiles named `__proto__`, which the JavaScript code's plain-object assignments (scripts/stateManager.js:333, 337, 339 and 346) lose.
- RoundTrip.LoadExportRoundTrip therefore also holds for the name `__proto__` in the model, where the JavaScript code would drop that server, tool or profile on export.
- RoundTrip.LoadExportRoundTrip requires a reloadable state, because the JavaScript code's round trip loses information in three cases:
  - an empty theme becomes `light`;
  - an empty active-profile name becomes null;
  - two tools with the same name collapse into one entry of the tools section, and the later one wins.
- The code does not enforce the following, and neither does the model:
  - The active profile is not checked against the loaded profiles.
  - A name may sit in both lists of a profile, and the disabled list wins.
  - The theme may be any string, although the comment on `updateTheme` (scripts/stateManager.js:126) names only `'light'` and `'dark'`.
  - The utilisation is not clamped to a percentage range.
  - `loadFromFiles` itself (scripts/stateManager.js:20-59) does not check that a command is non-empty. The configuration reader validates a stored configuration before it gets there (scripts/fileManager.js:27-30), and `Validation.Validate` models that check.
- The user-interface files, the server file and the application bootstrap are not part of this model.

=== FILE: coordinator.dfy ===
/**
 * The state coordinator: owns the application state, mutates it through
 * name-keyed commands that each notify the subscribed listeners, rebuilds it
 * from the two documents and serialises it back into them.
 *
 * Listeners are modelled by identity only; a notification appends the event to
 * `emitted` and one delivery per subscribed listener, in subscription order, to
 * `delivered`.
 */
module Coordinator {
  import opened Wrappers
  import opened Documents
  import opened Order
  import opened Models

  /** A subscribed callback, known by identity (the dashboard compares them with ===). */
  type Listener = nat

  /**
   * What a command announces: one constructor per event type the dashboard
   * sends to its listeners (`load`, `server-toggle`, `server-expand`,
   * `tools-expand`, `theme-change`, `context-update`, `profile-apply`,
   * `profile-save`, `profile-delete`, `server-description-update`,
   * `tools-update`), with the event's data.
   */
  datatype Event =
    | Loaded
    | ServerToggled(serverName: string, enabled: bool)
    | ServerExpanded(serverName: string, expanded: bool)
    | ToolsExpanded(serverName: string, expanded: bool)
    | ThemeChanged(theme: string)
    | ContextUpdated(percentage: int)
    | ProfileApplied(profileName: string)
    | ProfileSaved(profileName: string)
    | ProfileDeleted(profileName: string)
    | DescriptionUpdated(serverName: string)
    | ToolsUpdated(serverName: string)

  datatype Delivery = Delivery(listener: Listener, event: Event)

  datatype Manager = Manager(
    state: AppState,
    listeners: seq<Listener>,
    emitted: seq<Event>,
    delivered: seq<Delivery>)

  /** A new coordinator: empty state, no listeners, nothing emitted. */
  const Initial := Manager(EmptyState, [], [], [])

  /** The constructor: a fresh empty application state and no listeners, so nothing is announced. */
  lemma InitialManager()
    ensures Consistent(Initial.state) && GetStatistics(Initial.state) == Statistics(0, 0, 0, 0, 0)
    ensures Initial.state.servers == map[] && Initial.state.profiles == map[]
    ensures Initial.state.theme == "light" && Initial.state.activeProfile.None?
    ensures Initial.listeners == [] && Initial.emitted == [] && Initial.delivered == []
  {
    EmptyStateDefaults();
  }

  /** One tool entry passed to updateServerTools. */
  datatype ToolData = ToolData(name: string, description: Option<string>)

  // ===========================================================================
  // Listeners

  /** The calls `e` makes, one per listener, in subscription order. */
  function Deliveries(listeners: seq<Listener>, e: Event): (r: seq<Delivery>)
    ensures |r| == |listeners|
    ensures forall i :: 0 <= i < |r| ==> r[i] == Delivery(listeners[i], e)
  {
    if listeners == [] then [] else [Delivery(listeners[0], e)] + Deliveries(listeners[1..], e)
  }

  /** `r` is `m` after exactly one notification of `e` and no other change. */
  predicate Emits(m: Manager, r: Manager, e: Event)
  {
    && r.listeners == m.listeners
    && r.emitted == m.emitted + [e]
    && r.delivered == m.delivered + Deliveries(m.listeners, e)
  }

  /** notifyListeners: every current listener is called once with `e`, in subscription order. */
  function Notify(m: Manager, e: Event): (r: Manager)
    ensures r.state == m.state && Emits(m, r, e)
    ensures |r.delivered| == |m.delivered| + |m.listeners|
    ensures forall i :: 0 <= i < |m.listeners| ==> r.delivered[|m.delivered| + i] == Delivery(m.listeners[i], e)
  {
    m.(emitted := m.emitted + [e], delivered := m.delivered + Deliveries(m.listeners, e))
  }

  /** subscribe: the listener joins the end of the list. */
  function Subscribe(m: Manager, l: Listener): (r: Manager)
    ensures r.listeners == m.listeners + [l]
    ensures r.(listeners := m.listeners) == m
  {
    m.(listeners := m.listeners + [l])
  }

  /** The position of the first occurrence of `l`. */
  function FirstIndex(ls: seq<Listener>, l: Listener): (i: nat)
    requires l in ls
    ensures i < |ls| && ls[i] == l && l !in ls[..i]
  {
    if ls[0] == l then 0 else 1 + FirstIndex(ls[1..], l)
  }

  /** `rs` is `ls` without the first occurrence of `l`. */
  predicate RemovesFirst(ls: seq<Listener>, l: Listener, rs: seq<Listener>)
  {
    exists i :: 0 <= i < |ls| && ls[i] == l && l !in ls[..i] && rs == ls[..i] + ls[i + 1..]
  }

  /** The function subscribe returns: removes the first occurrence of `l`, if any. */
  function Unsubscribe(m: Manager, l: Listener): (r: Manager)
    ensures l !in m.listeners ==> r == m
    ensures l in m.listeners ==> RemovesFirst(m.listeners, l, r.listeners)
    ensures r.(listeners := m.listeners) == m
  {
    if l in m.listeners then
      var i := FirstIndex(m.listeners, l);
      m.(listeners := m.listeners[..i] + m.listeners[i + 1..])
    else m
  }

  // ===========================================================================
  // Loading

  function ServerMetaFor(meta: MetaDoc, name: string): ServerMeta
  {
    if meta.servers.Some? && name in meta.servers.value then meta.servers.value[name] else NoServerMeta
  }

  function ToolsFor(meta: MetaDoc, name: string): map<string, ToolMeta>
  {
    if meta.tools.Some? && name in meta.tools.value then meta.tools.value[name] else map[]
  }

  function ConfigNames(cfg: ConfigDoc): set<string>
  {
    if cfg.mcpServers.Some? then cfg.mcpServers.value.Keys else {}
  }

  function ToolNames(ts: seq<Tool>): (r: seq<string>)
    ensures |r| == |ts| && forall i :: 0 <= i < |ts| ==> r[i] == ts[i].name
  {
    seq(|ts|, i requires 0 <= i < |ts| => ts[i].name)
  }

  /** A server's tools as loaded: one per entry of its tools section, ascending by name. */
  function BuildTools(serverName: string, entries: map<string, ToolMeta>): (r: seq<Tool>)
    ensures Ascending(ToolNames(r))
    ensures forall n :: n in ToolNames(r) <==> n in entries
    ensures forall i :: 0 <= i < |r| ==>
              r[i].name in entries && r[i] == NewTool(r[i].name, entries[r[i].name].description, serverName)
  {
    var names := Ascend(entries.Keys);
    var r := seq(|names|, i requires 0 <= i < |names| => NewTool(names[i], entries[names[i]].description, serverName));
    assert ToolNames(r) == names;
    r
  }

  /** One server as loaded: the constructor's defaults plus its tools. */
  function LoadServer(name: string, entry: ConfigEntry, meta: MetaDoc): Server
  {
    NewServer(name, entry, ServerMetaFor(meta, name)).(tools := BuildTools(name, ToolsFor(meta, name)))
  }

  lemma AscendingSorted(ts: seq<Tool>)
    requires Ascending(ToolNames(ts))
    ensures ToolsSorted(ts) && ToolsDistinct(ts)
  {
    assert forall i, j :: 0 <= i < j < |ts| ==> Before(ToolNames(ts)[i], ToolNames(ts)[j]);
  }

  /** The servers loadFromFiles builds: one per configuration entry. */
  function LoadServers(cfg: ConfigDoc, meta: MetaDoc): (servers: map<string, Server>)
    ensures servers.Keys == ConfigNames(cfg)
    ensures forall n :: n in servers ==>
      && servers[n].name == n
      && ServerWellFormed(servers[n])
      && servers[n].(tools := []) == NewServer(n, cfg.mcpServers.value[n], ServerMetaFor(meta, n))
      && servers[n].tools == BuildTools(n, ToolsFor(meta, n))
  {
    var servers :=
      if cfg.mcpServers.Some? then
        map n | n in cfg.mcpServers.value :: LoadServer(n, cfg.mcpServers.value[n], meta)
      else map[];
    assert forall n :: n in servers ==> ServerWellFormed(servers[n]) by {
      forall n | n in servers ensures ServerWellFormed(servers[n]) {
        AscendingSorted(servers[n].tools);
      }
    }
    servers
  }

  /** The profiles loadFromFiles builds: one per profile entry. */
  function LoadProfiles(meta: MetaDoc): (profiles: map<string, Profile>)
    ensures profiles.Keys == (if meta.profiles.Some? then meta.profiles.value.Keys else {})
    ensures forall n :: n in profiles ==> profiles[n] == ProfileFromMeta(n, meta.profiles.value[n])
  {
    if meta.profiles.Some? then
      map n | n in meta.profiles.value :: ProfileFromMeta(n, meta.profiles.value[n])
    else map[]
  }

  /** The application settings after clearing: taken from the application section when present. */
  function LoadSettings(prior: AppState, meta: MetaDoc): (st: AppState)
    ensures st.servers == map[] && st.profiles == map[]
    ensures meta.application.Some? ==>
      && st.theme == StringOr(meta.application.value.theme, "light")
      && st.contextUtilization == meta.application.value.contextUtilization.GetOr(0)
      && st.activeProfile == StringOrNull(meta.application.value.activeProfile)
    ensures meta.application.None? ==>
      st.theme == prior.theme && st.contextUtilization == prior.contextUtilization && st.activeProfile.None?
  {
    var cleared := Clear(prior);
    if meta.application.Some? then
      var app := meta.application.value;
      cleared.(theme := StringOr(app.theme, "light"),
               contextUtilization := app.contextUtilization.GetOr(0),
               activeProfile := StringOrNull(app.activeProfile))
    else cleared
  }

  /**
   * The state loadFromFiles builds: cleared, then the application settings
   * (only when that section exists), then one server per configuration entry
   * and one profile per profile entry. Metadata and tools for names without a
   * configuration entry are dropped; the active profile is not checked against
   * the loaded profiles.
   */
  function LoadState(prior: AppState, cfg: ConfigDoc, meta: MetaDoc): (st: AppState)
    ensures Consistent(st)
    ensures st.servers.Keys == ConfigNames(cfg)
    ensures forall n :: n in st.servers ==>
      && st.servers[n].(tools := []) == NewServer(n, cfg.mcpServers.value[n], ServerMetaFor(meta, n))
      && st.servers[n].tools == BuildTools(n, ToolsFor(meta, n))
      && Ascending(ToolNames(st.servers[n].tools))
      && (forall t :: t in ToolNames(st.servers[n].tools) <==> t in ToolsFor(meta, n))
    ensures st.profiles.Keys == (if meta.profiles.Some? then meta.profiles.value.Keys else {})
    ensures forall n :: n in st.profiles ==> st.profiles[n] == ProfileFromMeta(n, meta.profiles.value[n])
    ensures meta.application.Some? ==>
      && st.theme == StringOr(meta.application.value.theme, "light")
      && st.contextUtilization == meta.application.value.contextUtilization.GetOr(0)
      && st.activeProfile == StringOrNull(meta.application.value.activeProfile)
    ensures meta.application.None? ==>
      st.theme == prior.theme && st.contextUtilization == prior.contextUtilization && st.activeProfile.None?
  {
    LoadSettings(prior, meta).(servers := LoadServers(cfg, meta), profiles := LoadProfiles(meta))
  }

  /** loadFromFiles: the state is replaced wholesale, then `load` is announced. */
  function LoadFromFiles(m: Manager, cfg: ConfigDoc, meta: MetaDoc): (r: Manager)
    ensures r.state == LoadState(m.state, cfg, meta)
    ensures Emits(m, r, Loaded)
  {
    Notify(m.(state := LoadState(m.state, cfg, meta)), Loaded)
  }

  // ===========================================================================
  // Commands

  /**
   * toggleServer: for a known server, flips its enabled flag, announces the new
   * flag and returns the server; for an unknown name nothing happens and null
   * is returned.
   */
  function ToggleServer(m: Manager, name: string): (r: (Manager, Option<Server>))
    ensures name !in m.state.servers ==> r == (m, None)
    ensures name in m.state.servers ==>
      var s := m.state.servers[name];
      && r.1 == Some(s.(disabled := !s.disabled))
      && r.0.state == m.state.(servers := m.state.servers[name := s.(disabled := !s.disabled)])
      && Emits(m, r.0, ServerToggled(name, s.disabled))
  {
    if name !in m.state.servers then (m, None)
    else
      var s := Toggle(m.state.servers[name]);
      (Notify(m.(state := m.state.(servers := m.state.servers[name := s])), ServerToggled(name, IsEnabled(s))), Some(s))
  }

  /** toggleServerExpanded: flips the server's `expanded` flag and returns its new value; false for an unknown name. */
  function ToggleServerExpanded(m: Manager, name: string): (r: (Manager, bool))
    ensures name !in m.state.servers ==> r == (m, false)
    ensures name in m.state.servers ==>
      var s := m.state.servers[name];
      && r.1 == !s.expanded
      && r.0.state == m.state.(servers := m.state.servers[name := s.(expanded := !s.expanded)])
      && Emits(m, r.0, ServerExpanded(name, !s.expanded))
  {
    if name !in m.state.servers then (m, false)
    else
      var prev := m.state.servers[name];
      var s := prev.(expanded := !prev.expanded);
      (Notify(m.(state := m.state.(servers := m.state.servers[name := s])), ServerExpanded(name, s.expanded)), s.expanded)
  }

  /** toggleToolsExpanded: flips the server's `toolsExpanded` flag and returns its new value; false for an unknown name. */
  function ToggleToolsExpanded(m: Manager, name: string): (r: (Manager, bool))
    ensures name !in m.state.servers ==> r == (m, false)
    ensures name in m.state.servers ==>
      var s := m.state.servers[name];
      && r.1 == !s.toolsExpanded
      && r.0.state == m.state.(servers := m.state.servers[name := s.(toolsExpanded := !s.toolsExpanded)])
      && Emits(m, r.0, ToolsExpanded(name, !s.toolsExpanded))
  {
    if name !in m.state.servers then (m, false)
    else
      var prev := m.state.servers[name];
      var s := prev.(toolsExpanded := !prev.toolsExpanded);
      (Notify(m.(state := m.state.(servers := m.state.servers[name := s])), ToolsExpanded(name, s.toolsExpanded)), s.toolsExpanded)
  }

  /** updateTheme: stores the theme as given and announces it. */
  function UpdateTheme(m: Manager, theme: string): (r: Manager)
    ensures r.state == m.state.(theme := theme)
    ensures Emits(m, r, ThemeChanged(theme))
  {
    Notify(m.(state := m.state.(theme := theme)), ThemeChanged(theme))
  }

  /** updateContextUtilization: stores the value unclamped and announces it. */
  function UpdateContextUtilization(m: Manager, percentage: int): (r: Manager)
    ensures r.state == m.state.(contextUtilization := percentage)
    ensures Emits(m, r, ContextUpdated(percentage))
  {
    Notify(m.(state := m.state.(contextUtilization := percentage)), ContextUpdated(percentage))
  }

  /**
   * applyProfile: for a known profile, applies it (disabled wins over enabled,
   * unknown server names are ignored), makes it active, records `now` as its
   * last use and answers true; for an unknown name nothing happens and false
   * is returned.
   */
  function ApplyProfile(m: Manager, name: string, now: string): (r: (Manager, bool))
    ensures name !in m.state.profiles ==> r == (m, false)
    ensures name in m.state.profiles ==>
      var p := m.state.profiles[name];
      && r.1
      && r.0.state.servers.Keys == m.state.servers.Keys
      && (forall n :: n in m.state.servers ==>
            r.0.state.servers[n] == m.state.servers[n].(disabled :=
              if n in p.disabledServers then true
              else if n in p.enabledServers then false
              else m.state.servers[n].disabled))
      && r.0.state.profiles == m.state.profiles[name := p.(lastUsed := Some(now))]
      && r.0.state.activeProfile == Some(p.name)
      && r.0.state.theme == m.state.theme
      && r.0.state.contextUtilization == m.state.contextUtilization
      && Emits(m, r.0, ProfileApplied(name))
  {
    if name !in m.state.profiles then (m, false)
    else
      var applied := Models.ApplyProfile(m.state, m.state.profiles[name], now);
      var st := applied.0.(profiles := applied.0.profiles[name := applied.1]);
      (Notify(m.(state := st), ProfileApplied(name)), true)
  }

  /**
   * saveProfile: stores, under `name`, a new profile holding the current
   * configuration's two lists, the enabled/disabled partition of all servers
   * with each name once and in order, replacing any profile of that name; it
   * has never been used and was created at `now`.
   */
  function SaveProfile(m: Manager, name: string, description: string, now: string): (r: (Manager, Profile))
    ensures r.1.name == name && r.1.description == description
    ensures r.1.createdAt == Some(now) && r.1.lastUsed.None?
    ensures forall n :: n in r.1.enabledServers <==> n in m.state.servers && IsEnabled(m.state.servers[n])
    ensures forall n :: n in r.1.disabledServers <==> n in m.state.servers && !IsEnabled(m.state.servers[n])
    ensures Ascending(r.1.enabledServers) && Ascending(r.1.disabledServers)
    ensures r.0.state == m.state.(profiles := m.state.profiles[name := r.1])
    ensures Emits(m, r.0, ProfileSaved(name))
  {
    var config := GetCurrentConfiguration(m.state);
    var p := NewProfile(name, Some(description), Some(config.enabled), Some(config.disabled), now);
    (Notify(m.(state := SetProfile(m.state, p)), ProfileSaved(name)), p)
  }

  /**
   * deleteProfile: for a known profile, removes it (clearing the active
   * profile when it was this one) and answers true; otherwise nothing happens
   * and false is returned.
   */
  function DeleteProfile(m: Manager, name: string): (r: (Manager, bool))
    ensures name !in m.state.profiles ==> r == (m, false)
    ensures name in m.state.profiles ==>
      && r.1
      && r.0.state == Models.DeleteProfile(m.state, name)
      && r.0.state.profiles.Keys == m.state.profiles.Keys - {name}
      && (m.state.activeProfile == Some(name) ==> r.0.state.activeProfile.None?)
      && Emits(m, r.0, ProfileDeleted(name))
  {
    if name !in m.state.profiles then (m, false)
    else (Notify(m.(state := Models.DeleteProfile(m.state, name)), ProfileDeleted(name)), true)
  }

  /** updateServerDescription: replaces one server's description; unknown names are ignored silently. */
  function UpdateServerDescription(m: Manager, name: string, description: string): (r: Manager)
    ensures name !in m.state.servers ==> r == m
    ensures name in m.state.servers ==>
      && r.state == m.state.(servers := m.state.servers[name := m.state.servers[name].(description := description)])
      && Emits(m, r, DescriptionUpdated(name))
  {
    if name !in m.state.servers then m
    else
      var s := m.state.servers[name].(description := description);
      Notify(m.(state := m.state.(servers := m.state.servers[name := s])), DescriptionUpdated(name))
  }

  /** The Tool objects updateServerTools builds, in the order given. */
  function MakeTools(serverName: string, list: seq<ToolData>): (r: seq<Tool>)
    ensures |r| == |list|
    ensures forall i :: 0 <= i < |r| ==> r[i] == NewTool(list[i].name, list[i].description, serverName)
  {
    seq(|list|, i requires 0 <= i < |list| => NewTool(list[i].name, list[i].description, serverName))
  }

  /**
   * updateServerTools: replaces one server's tools with the given list, sorted
   * stably by name; every other server and field is unchanged. Unknown names
   * change nothing and announce nothing.
   */
  function UpdateServerTools(m: Manager, name: string, list: seq<ToolData>): (r: Manager)
    ensures name !in m.state.servers ==> r == m
    ensures name in m.state.servers ==>
      && r.state.servers.Keys == m.state.servers.Keys
      && var tools := r.state.servers[name].tools;
      && r.state.servers[name] == m.state.servers[name].(tools := tools)
      && (forall n :: n in m.state.servers && n != name ==> r.state.servers[n] == m.state.servers[n])
      && r.state == m.state.(servers := r.state.servers)
      && ToolsSorted(tools)
      && multiset(tools) == multiset(MakeTools(name, list))
      && (forall n :: Named(tools, n) == Named(MakeTools(name, list), n))
      && Emits(m, r, ToolsUpdated(name))
  {
    if name !in m.state.servers then m
    else
      var s := m.state.servers[name].(tools := SortTools(MakeTools(name, list)));
      Notify(m.(state := m.state.(servers := m.state.servers[name := s])), ToolsUpdated(name))
  }

  // ===========================================================================
  // Exporting

  /** exportToMcpConfig: one configuration entry per server. */
  function ExportToMcpConfig(m: Manager): (doc: ConfigDoc)
    ensures doc.mcpServers.Some? && doc.mcpServers.value.Keys == m.state.servers.Keys
    ensures forall n :: n in m.state.servers ==> doc.mcpServers.value[n] == ToMcpConfig(m.state.servers[n])
  {
    ConfigDoc(Some(map n | n in m.state.servers :: ToMcpConfig(m.state.servers[n])))
  }

  /** No tool after position `i` has the same name as the tool at `i`. */
  predicate LastOfName(tools: seq<Tool>, i: int)
    requires 0 <= i < |tools|
  {
    forall j :: i < j < |tools| ==> tools[j].name != tools[i].name
  }

  /**
   * A server's tools as a metadata section: one entry per tool name, holding
   * the last tool of that name, since a later tool overwrites an earlier one.
   */
  function ToolsToMeta(tools: seq<Tool>): (r: map<string, ToolMeta>)
    ensures r.Keys == set i | 0 <= i < |tools| :: tools[i].name
    ensures forall i :: 0 <= i < |tools| && LastOfName(tools, i) ==> r[tools[i].name] == ToolToMeta(tools[i])
    decreases |tools|
  {
    if tools == [] then map[]
    else
      var init := tools[..|tools| - 1];
      var last := tools[|tools| - 1];
      NameSetStep(tools);
      ToolsToMetaStep(tools, ToolsToMeta(init));
      ToolsToMeta(init)[last.name := ToolToMeta(last)]
  }

  /** Overwriting the section of all but the last tool with the last tool keeps every last-of-its-name entry. */
  lemma ToolsToMetaStep(tools: seq<Tool>, prior: map<string, ToolMeta>)
    requires tools != []
    requires var init := tools[..|tools| - 1];
      forall i :: 0 <= i < |init| && LastOfName(init, i) ==> init[i].name in prior && prior[init[i].name] == ToolToMeta(init[i])
    ensures var r := prior[tools[|tools| - 1].name := ToolToMeta(tools[|tools| - 1])];
      forall i :: 0 <= i < |tools| && LastOfName(tools, i) ==> r[tools[i].name] == ToolToMeta(tools[i])
  {
    var init := tools[..|tools| - 1];
    var last := tools[|tools| - 1];
    var r := prior[last.name := ToolToMeta(last)];
    forall i | 0 <= i < |tools| && LastOfName(tools, i) ensures r[tools[i].name] == ToolToMeta(tools[i]) {
      if i < |init| {
        LastOfNameInit(tools, i);
        assert prior[init[i].name] == ToolToMeta(init[i]);
      }
    }
  }

  lemma NameSetStep(tools: seq<Tool>)
    requires tools != []
    ensures var init := tools[..|tools| - 1];
      (set i | 0 <= i < |tools| :: tools[i].name) == (set i | 0 <= i < |init| :: init[i].name) + {tools[|tools| - 1].name}
  {
    var init := tools[..|tools| - 1];
    assert forall i :: 0 <= i < |init| ==> init[i] == tools[i];
  }

  /** A tool that is the last of its name stays so without the final tool, whose name differs. */
  lemma LastOfNameInit(tools: seq<Tool>, i: int)
    requires 0 <= i < |tools| - 1 && LastOfName(tools, i)
    ensures tools[..|tools| - 1][i] == tools[i] && LastOfName(tools[..|tools| - 1], i)
    ensures tools[i].name != tools[|tools| - 1].name
  {
    var init := tools[..|tools| - 1];
    assert forall j :: i < j < |init| ==> init[j] == tools[j];
  }

  /**
   * exportToMetadata: the application settings with `now` as refresh time, a
   * metadata entry per server, a tools section per server that has tools, and
   * every profile.
   */
  function ExportToMetadata(m: Manager, now: string): (doc: MetaDoc)
    ensures doc.application == Some(AppSection(Some(m.state.theme), Some(now),
                                               Some(m.state.contextUtilization), m.state.activeProfile))
    ensures doc.servers.Some? && doc.servers.value.Keys == m.state.servers.Keys
    ensures forall n :: n in m.state.servers ==> doc.servers.value[n] == ToServerMeta(m.state.servers[n], now)
    ensures doc.tools.Some? &&
      doc.tools.value.Keys == set n | n in m.state.servers && m.state.servers[n].tools != []
    ensures forall n :: n in doc.tools.value ==> doc.tools.value[n] == ToolsToMeta(m.state.servers[n].tools)
    ensures doc.profiles.Some? && doc.profiles.value.Keys == m.state.profiles.Keys
    ensures forall n :: n in m.state.profiles ==> doc.profiles.value[n] == ProfileToMeta(m.state.profiles[n])
  {
    var st := m.state;
    MetaDoc(
      Some(AppSection(Some(st.theme), Some(now), Some(st.contextUtilization), st.activeProfile)),
      Some(map n | n in st.servers :: ToServerMeta(st.servers[n], now)),
      Some(map n | n in st.servers && st.servers[n].tools != [] :: ToolsToMeta(st.servers[n].tools)),
      Some(map n | n in st.profiles :: ProfileToMeta(st.profiles[n])))
  }

  // ===========================================================================
  // All commands in one place

  datatype Command =
    | FlipEnabled(server: string)
    | FlipExpanded(server: string)
    | FlipToolsExpanded(server: string)
    | SetTheme(theme: string)
    | SetContext(percentage: int)
    | Apply(profile: string, now: string)
    | Save(profile: string, description: string, now: string)
    | Delete(profile: string)
    | Describe(server: string, description: string)
    | ReplaceTools(server: string, tools: seq<ToolData>)

  /** The coordinator after running `c`, with its return value dropped. */
  function Step(m: Manager, c: Command): Manager
  {
    match c
    case FlipEnabled(n) => ToggleServer(m, n).0
    case FlipExpanded(n) => ToggleServerExpanded(m, n).0
    case FlipToolsExpanded(n) => ToggleToolsExpanded(m, n).0
    case SetTheme(t) => UpdateTheme(m, t)
    case SetContext(p) => UpdateContextUtilization(m, p)
    case Apply(n, now) => ApplyProfile(m, n, now).0
    case Save(n, d, now) => SaveProfile(m, n, d, now).0
    case Delete(n) => DeleteProfile(m, n).0
    case Describe(n, d) => UpdateServerDescription(m, n, d)
    case ReplaceTools(n, list) => UpdateServerTools(m, n, list)
  }

  /** Whether the name `c` refers to exists (commands without a name always proceed). */
  predicate Known(st: AppState, c: Command)
  {
    match c
    case FlipEnabled(n) => n in st.servers
    case FlipExpanded(n) => n in st.servers
    case FlipToolsExpanded(n) => n in st.servers
    case Apply(n, _) => n in st.profiles
    case Delete(n) => n in st.profiles
    case Describe(n, _) => n in st.servers
    case ReplaceTools(n, _) => n in st.servers
    case _ => true
  }

  /** The event a command on a known target announces. */
  function EventOf(st: AppState, c: Command): Event
    requires Known(st, c)
  {
    match c
    case FlipEnabled(n) => ServerToggled(n, st.servers[n].disabled)
    case FlipExpanded(n) => ServerExpanded(n, !st.servers[n].expanded)
    case FlipToolsExpanded(n) => ToolsExpanded(n, !st.servers[n].toolsExpanded)
    case SetTheme(t) => ThemeChanged(t)
    case SetContext(p) => ContextUpdated(p)
    case Apply(n, _) => ProfileApplied(n)
    case Save(n, _, _) => ProfileSaved(n)
    case Delete(n) => ProfileDeleted(n)
    case Describe(n, _) => DescriptionUpdated(n)
    case ReplaceTools(n, _) => ToolsUpdated(n)
  }
}

=== FILE: documents.dfy ===
/**
 * The two persisted documents, already parsed. `Json` is a raw parsed value,
 * used where the dashboard inspects an arbitrary document (the configuration
 * validator); `ConfigDoc` and `MetaDoc` are the typed shapes that loading reads
 * and exporting writes. In both, `None` stands for an absent property.
 */
module Documents {
  import opened Wrappers

  /** A parsed JSON value. Numbers are modelled as integers. */
  datatype Json =
    | JNull
    | JBool(b: bool)
    | JNumber(n: int)
    | JString(s: string)
    | JArray(items: seq<Json>)
    | JObject(fields: map<string, Json>)

  /** JavaScript truthiness of a parsed value. */
  predicate Truthy(j: Json)
  {
    match j
    case JNull => false
    case JBool(b) => b
    case JNumber(n) => n != 0
    case JString(s) => s != ""
    case _ => true
  }

  /** JavaScript `typeof j === 'object'` (true of null, arrays and objects). */
  predicate TypeofObject(j: Json)
  {
    j.JNull? || j.JArray? || j.JObject?
  }

  /** Reading property `key`; anything but an object yields `undefined` here. */
  function Property(j: Json, key: string): Option<Json>
  {
    if j.JObject? && key in j.fields then Some(j.fields[key]) else None
  }

  // ---------------------------------------------------------------------------
  // The configuration document: { "mcpServers": { <name>: entry } }

  datatype ConfigEntry = ConfigEntry(
    command: string,
    args: Option<seq<string>>,
    env: Option<map<string, string>>,
    cwd: Option<string>,
    disabled: Option<bool>)

  datatype ConfigDoc = ConfigDoc(mcpServers: Option<map<string, ConfigEntry>>)

  // ---------------------------------------------------------------------------
  // The metadata document: application / servers / tools / profiles sections.

  datatype AppSection = AppSection(
    theme: Option<string>,
    lastRefresh: Option<string>,
    contextUtilization: Option<int>,
    activeProfile: Option<string>)

  datatype ServerMeta = ServerMeta(
    description: Option<string>,
    expanded: Option<bool>,
    toolsExpanded: Option<bool>,
    lastQueried: Option<string>)

  datatype ToolMeta = ToolMeta(description: Option<string>)

  datatype ProfileMeta = ProfileMeta(
    description: Option<string>,
    enabledServers: Option<seq<string>>,
    disabledServers: Option<seq<string>>,
    createdAt: Option<string>,
    lastUsed: Option<string>)

  datatype MetaDoc = MetaDoc(
    application: Option<AppSection>,
    servers: Option<map<string, ServerMeta>>,
    tools: Option<map<string, map<string, ToolMeta>>>,
    profiles: Option<map<string, ProfileMeta>>)

  /** A server's metadata entry when the document has none (`|| {}`). */
  const NoServerMeta := ServerMeta(None, None, None, None)

  // ---------------------------------------------------------------------------
  // JavaScript `v || default` on optional values.

  /** `v || default` for a string property: absent and `''` both fall back. */
  function StringOr(v: Option<string>, default: string): (r: string)
    ensures v.Some? && v.value != "" ==> r == v.value
    ensures v.None? || v.value == "" ==> r == default
  {
    if v.Some? && v.value != "" then v.value else default
  }

  /** `v || null` for a string property: `''` becomes null. */
  function StringOrNull(v: Option<string>): (r: Option<string>)
    ensures r.Some? <==> v.Some? && v.value != ""
    ensures r.Some? ==> r == v
  {
    if v.Some? && v.value != "" then v else None
  }

  /** `v || false` for a boolean property. */
  function BoolOr(v: Option<bool>): (r: bool)
    ensures r <==> v == Some(true)
  {
    v.Some? && v.value
  }

  // ---------------------------------------------------------------------------
  // Writing a typed configuration document as a parsed JSON value.

  function EncodeStrings(xs: seq<string>): (r: seq<Json>)
    ensures |r| == |xs|
    ensures forall i :: 0 <= i < |xs| ==> r[i] == JString(xs[i])
  {
    seq(|xs|, i requires 0 <= i < |xs| => JString(xs[i]))
  }

  function EncodeEntry(e: ConfigEntry): Json
  {
    var withCommand := map["command" := JString(e.command)];
    var withArgs := if e.args.Some? then withCommand["args" := JArray(EncodeStrings(e.args.value))] else withCommand;
    var withEnv := if e.env.Some? then withArgs["env" := JObject(map k | k in e.env.value :: JString(e.env.value[k]))] else withArgs;
    var withCwd := if e.cwd.Some? then withEnv["cwd" := JString(e.cwd.value)] else withEnv;
    var withDisabled := if e.disabled.Some? then withCwd["disabled" := JBool(e.disabled.value)] else withCwd;
    JObject(withDisabled)
  }

  function EncodeConfig(doc: ConfigDoc): Json
  {
    if doc.mcpServers.Some? then
      var servers := doc.mcpServers.value;
      JObject(map["mcpServers" := JObject(map k | k in servers :: EncodeEntry(servers[k]))])
    else
      JObject(map[])
  }
}

=== FILE: models.dfy ===
/**
 * The entity layer: servers, their tools, profiles, and the application state
 * aggregate, with the derived views (statistics, the enabled/disabled
 * partition, alphabetical lists) and profile application.
 */
module Models {
  import opened Wrappers
  import opened Documents
  import opened Order

  /** A capability a server advertises; `serverName` names its owner. */
  datatype Tool = Tool(name: string, description: string, serverName: string)

  datatype Server = Server(
    name: string,
    command: string,
    args: seq<string>,
    env: map<string, string>,
    cwd: Option<string>,
    disabled: bool,
    description: string,
    expanded: bool,
    toolsExpanded: bool,
    tools: seq<Tool>)

  /** A saved enable/disable preset; the timestamps are opaque strings. */
  datatype Profile = Profile(
    name: string,
    description: string,
    enabledServers: seq<string>,
    disabledServers: seq<string>,
    createdAt: Option<string>,
    lastUsed: Option<string>)

  datatype AppState = AppState(
    servers: map<string, Server>,
    profiles: map<string, Profile>,
    theme: string,
    contextUtilization: int,
    activeProfile: Option<string>)

  datatype Statistics = Statistics(
    total: nat,
    enabled: nat,
    disabled: nat,
    totalTools: nat,
    contextUtilization: int)

  /** The names of the enabled and of the disabled servers. */
  datatype Configuration = Configuration(enabled: seq<string>, disabled: seq<string>)

  // ===========================================================================
  // Tools

  /** The Tool constructor: a missing or empty description becomes `''`, any other is kept. */
  function NewTool(name: string, description: Option<string>, serverName: string): (t: Tool)
    ensures t.name == name && t.serverName == serverName
    ensures description.Some? && description.value != "" ==> t.description == description.value
    ensures description.None? || description.value == "" ==> t.description == ""
  {
    Tool(name, StringOr(description, ""), serverName)
  }

  /** A tool is usable exactly when its owning server exists and is enabled. */
  function ToolEnabled(server: Option<Server>): (r: bool)
    ensures r <==> server.Some? && !server.value.disabled
  {
    server.Some? && IsEnabled(server.value)
  }

  /** A tool's metadata entry: the description, which the constructor's `|| ''` reads back unchanged. */
  function ToolToMeta(t: Tool): (e: ToolMeta)
    ensures e.description.Some?
    ensures StringOr(e.description, "") == t.description
  {
    ToolMeta(Some(t.description))
  }

  /** Tools listed in non-decreasing name order. */
  predicate ToolsSorted(ts: seq<Tool>)
  {
    forall i, j :: 0 <= i < j < |ts| ==> Below(ts[i].name, ts[j].name)
  }

  /** No two tools share a name. */
  predicate ToolsDistinct(ts: seq<Tool>)
  {
    forall i, j :: 0 <= i < j < |ts| ==> ts[i].name != ts[j].name
  }

  /** The tools called `n`, in their original relative order. */
  function Named(ts: seq<Tool>, n: string): (r: seq<Tool>)
    ensures |r| <= |ts|
  {
    if ts == [] then []
    else (if ts[0].name == n then [ts[0]] else []) + Named(ts[1..], n)
  }

  lemma {:induction false} NamedAppend(a: seq<Tool>, b: seq<Tool>, n: string)
    ensures Named(a + b, n) == Named(a, n) + Named(b, n)
    decreases |a|
  {
    if a == [] {
      assert a + b == b;
    } else {
      var head := if a[0].name == n then [a[0]] else [];
      assert (a + b)[0] == a[0];
      assert (a + b)[1..] == a[1..] + b;
      NamedAppend(a[1..], b, n);
      calc {
        Named(a + b, n);
        head + Named(a[1..] + b, n);
        head + (Named(a[1..], n) + Named(b, n));
        (head + Named(a[1..], n)) + Named(b, n);
        Named(a, n) + Named(b, n);
      }
    }
  }

  lemma {:induction false} NamedAbsent(ts: seq<Tool>, n: string)
    requires forall i :: 0 <= i < |ts| ==> ts[i].name != n
    ensures Named(ts, n) == []
    decreases |ts|
  {
    if ts != [] {
      NamedAbsent(ts[1..], n);
    }
  }

  /** Inserts `t` after every tool whose name does not sort after it. */
  function InsertTool(t: Tool, ts: seq<Tool>): (r: seq<Tool>)
    requires ToolsSorted(ts)
    ensures ToolsSorted(r)
    ensures multiset(r) == multiset(ts) + multiset{t}
    decreases |ts|
  {
    if ts == [] then [t]
    else if Before(t.name, ts[0].name) then
      InsertFront(t, ts);
      [t] + ts
    else
      var rest := InsertTool(t, ts[1..]);
      InsertBehind(t, ts, rest);
      [ts[0]] + rest
  }

  lemma InsertFront(t: Tool, ts: seq<Tool>)
    requires ToolsSorted(ts) && ts != [] && Before(t.name, ts[0].name)
    ensures ToolsSorted([t] + ts)
  {
    forall j | 0 <= j < |ts| ensures Below(t.name, ts[j].name) {
      if j > 0 { BelowTransitive(t.name, ts[0].name, ts[j].name); }
    }
  }

  lemma InsertBehind(t: Tool, ts: seq<Tool>, rest: seq<Tool>)
    requires ToolsSorted(ts) && ts != [] && !Before(t.name, ts[0].name)
    requires ToolsSorted(rest) && multiset(rest) == multiset(ts[1..]) + multiset{t}
    ensures ToolsSorted([ts[0]] + rest)
    ensures multiset([ts[0]] + rest) == multiset(ts) + multiset{t}
  {
    BelowTotal(t.name, ts[0].name);
    BelowReflexive(t.name);
    forall x | x in multiset(rest) ensures Below(ts[0].name, x.name) {
      if x != t {
        assert x in multiset(ts[1..]);
        var i :| 0 <= i < |ts[1..]| && ts[1..][i] == x;
        assert ts[i + 1] == x;
      }
    }
    forall j | 0 <= j < |rest| ensures Below(ts[0].name, rest[j].name) {
      assert rest[j] in multiset(rest);
    }
    assert ts == [ts[0]] + ts[1..];
  }

  /** Inserting `t` appends it to the tools of its own name and leaves other names alone. */
  lemma {:induction false} InsertToolNamed(t: Tool, ts: seq<Tool>, n: string)
    requires ToolsSorted(ts)
    ensures Named(InsertTool(t, ts), n) == Named(ts, n) + (if t.name == n then [t] else [])
    decreases |ts|
  {
    if ts == [] {
      assert Named([t], n) == (if t.name == n then [t] else []) + Named([], n);
    } else if Before(t.name, ts[0].name) {
      InsertFrontNamed(t, ts, n);
    } else {
      InsertToolNamed(t, ts[1..], n);
      PrependNamed(ts[0], ts[1..], InsertTool(t, ts[1..]), n, if t.name == n then [t] else []);
      assert [ts[0]] + ts[1..] == ts;
    }
  }

  /** Putting the same tool in front of two sequences keeps their per-name relation. */
  lemma PrependNamed(x: Tool, a: seq<Tool>, b: seq<Tool>, n: string, tail: seq<Tool>)
    requires Named(b, n) == Named(a, n) + tail
    ensures Named([x] + b, n) == Named([x] + a, n) + tail
  {
    NamedCons(x, a, n);
    NamedCons(x, b, n);
  }

  lemma NamedCons(x: Tool, ts: seq<Tool>, n: string)
    ensures Named([x] + ts, n) == (if x.name == n then [x] else []) + Named(ts, n)
  {
    assert ([x] + ts)[1..] == ts;
  }

  /** A tool put in front of sorted tools that all sort after it is the only one of its name. */
  lemma InsertFrontNamed(t: Tool, ts: seq<Tool>, n: string)
    requires ToolsSorted(ts) && ts != [] && Before(t.name, ts[0].name)
    ensures Named([t] + ts, n) == Named(ts, n) + (if t.name == n then [t] else [])
  {
    assert ([t] + ts)[1..] == ts;
    if t.name == n {
      forall i | 0 <= i < |ts| ensures ts[i].name != n {
        if i > 0 && ts[i].name == n {
          BelowAntisymmetric(ts[0].name, t.name);
        }
      }
      NamedAbsent(ts, n);
    }
  }

  /**
   * Array.prototype.sort by tool name, which is stable: the result is ordered
   * by name and keeps the input order among tools of the same name.
   */
  function SortTools(ts: seq<Tool>): (r: seq<Tool>)
    ensures ToolsSorted(r)
    ensures multiset(r) == multiset(ts)
    ensures forall n :: Named(r, n) == Named(ts, n)
    decreases |ts|
  {
    if ts == [] then []
    else
      var init := ts[..|ts| - 1];
      var last := ts[|ts| - 1];
      var sorted := SortTools(init);
      assert ts == init + [last];
      InsertLastNamed(init, last, sorted);
      InsertTool(last, sorted)
  }

  /** Inserting the last tool into the sorted others keeps every name's tools in input order. */
  lemma InsertLastNamed(init: seq<Tool>, last: Tool, sorted: seq<Tool>)
    requires ToolsSorted(sorted) && forall n :: Named(sorted, n) == Named(init, n)
    ensures forall n :: Named(InsertTool(last, sorted), n) == Named(init + [last], n)
  {
    forall n ensures Named(InsertTool(last, sorted), n) == Named(init + [last], n) {
      InsertToolNamed(last, sorted, n);
      NamedAppend(init, [last], n);
      assert Named([last], n) == (if last.name == n then [last] else []) + Named([], n);
    }
  }

  // ===========================================================================
  // Servers

  /** JavaScript whitespace, as `String.prototype.trim` removes it. */
  predicate IsSpace(c: char)
  {
    c == ' ' || c == '\t' || c == '\n' || c == '\r' || c == '\U{000B}' || c == '\U{000C}'
    || c == '\U{00A0}' || c == '\U{1680}' || ('\U{2000}' <= c <= '\U{200A}')
    || c == '\U{2028}' || c == '\U{2029}' || c == '\U{202F}' || c == '\U{205F}'
    || c == '\U{3000}' || c == '\U{FEFF}'
  }

  predicate AllSpace(s: string)
  {
    forall i :: 0 <= i < |s| ==> IsSpace(s[i])
  }

  function LeadingSpace(s: string): (k: nat)
    ensures k <= |s| && AllSpace(s[..k])
    ensures k < |s| ==> !IsSpace(s[k])
    decreases |s|
  {
    if s != [] && IsSpace(s[0]) then
      var k := 1 + LeadingSpace(s[1..]);
      assert forall i :: 1 <= i < k ==> s[..k][i] == s[1..][..k - 1][i - 1];
      k
    else 0
  }

  function TrailingSpace(s: string): (k: nat)
    ensures k <= |s| && AllSpace(s[|s| - k..])
    ensures k < |s| ==> !IsSpace(s[|s| - k - 1])
    decreases |s|
  {
    if s != [] && IsSpace(s[|s| - 1]) then
      var init := s[..|s| - 1];
      var k := TrailingSpace(init);
      assert s[|s| - (k + 1)..] == init[|init| - k..] + [s[|s| - 1]];
      k + 1
    else 0
  }

  /** `r` is a slice of `s` with only whitespace cut off on either side. */
  predicate CutFrom(r: string, s: string)
  {
    exists i :: 0 <= i && i + |r| <= |s| && r == s[i..i + |r|] && AllSpace(s[..i]) && AllSpace(s[i + |r|..])
  }

  /** `String.prototype.trim`: `s` without its leading and trailing whitespace. */
  function Trim(s: string): (r: string)
    ensures CutFrom(r, s)
    ensures r != [] ==> !IsSpace(r[0]) && !IsSpace(r[|r| - 1])
  {
    var i := LeadingSpace(s);
    var rest := s[i..];
    var j := TrailingSpace(rest);
    TrimSlices(s, i, j);
    rest[..|rest| - j]
  }

  /** Cutting `i` characters off the front and then `j` off the back of what is left. */
  lemma TrimSlices(s: string, i: nat, j: nat)
    requires i <= |s| && j <= |s| - i
    requires AllSpace(s[..i]) && AllSpace(s[i..][|s| - i - j..])
    ensures var r := s[i..][..|s| - i - j];
      && i + |r| <= |s| && r == s[i..i + |r|]
      && AllSpace(s[..i]) && AllSpace(s[i + |r|..])
  {
    assert s[i + (|s| - i - j)..] == s[i..][|s| - i - j..];
  }

  /** `Array.prototype.join(' ')`. */
  function JoinWithSpaces(xs: seq<string>): string
  {
    if xs == [] then ""
    else if |xs| == 1 then xs[0]
    else xs[0] + " " + JoinWithSpaces(xs[1..])
  }

  /**
   * The Server constructor: every property the documents leave out takes its
   * default, and the tool list starts empty.
   */
  function NewServer(name: string, config: ConfigEntry, meta: ServerMeta): (s: Server)
    ensures s.name == name && s.command == config.command && s.tools == []
    ensures config.args.Some? ==> s.args == config.args.value
    ensures config.args.None? ==> s.args == []
    ensures config.env.Some? ==> s.env == config.env.value
    ensures config.env.None? ==> s.env == map[]
    ensures s.cwd.None? <==> config.cwd.None? || config.cwd.value == ""
    ensures s.cwd.Some? ==> s.cwd == config.cwd
    ensures s.disabled <==> config.disabled == Some(true)
    ensures meta.description.Some? && meta.description.value != "" ==> s.description == meta.description.value
    ensures meta.description.None? || meta.description.value == "" ==> s.description == ""
    ensures s.expanded <==> meta.expanded == Some(true)
    ensures s.toolsExpanded <==> meta.toolsExpanded == Some(true)
    ensures ServerWellFormed(s)
  {
    Server(
      name,
      config.command,
      config.args.GetOr([]),
      config.env.GetOr(map[]),
      StringOrNull(config.cwd),
      BoolOr(config.disabled),
      StringOr(meta.description, ""),
      BoolOr(meta.expanded),
      BoolOr(meta.toolsExpanded),
      [])
  }

  /** isEnabled: a server is enabled exactly when it is not disabled. */
  predicate IsEnabled(s: Server)
    ensures IsEnabled(s) <==> !s.disabled
  {
    !s.disabled
  }

  /** Flips the enabled state and nothing else. */
  function Toggle(s: Server): (r: Server)
    ensures IsEnabled(r) == !IsEnabled(s)
    ensures r.(disabled := s.disabled) == s
  {
    s.(disabled := !s.disabled)
  }

  lemma ToggleTwice(s: Server)
    ensures Toggle(Toggle(s)) == s
  {
  }

  /**
   * The launch command for display: the command, a space and the arguments
   * joined by spaces, with the surrounding whitespace cut off.
   */
  function CommandString(s: Server): (r: string)
    ensures CutFrom(r, s.command + " " + JoinWithSpaces(s.args))
    ensures r != [] ==> !IsSpace(r[0]) && !IsSpace(r[|r| - 1])
  {
    var line := s.command + " " + JoinWithSpaces(s.args);
    Trim(line)
  }

  /** Text that neither starts nor ends with whitespace is left alone by `trim`. */
  lemma TrimClean(s: string)
    requires s != [] && !IsSpace(s[0]) && !IsSpace(s[|s| - 1])
    ensures Trim(s) == s
  {
    assert s[0..] == s;
  }

  /** With no arguments only the separating space is trimmed away. */
  lemma TrimBareCommand(c: string)
    requires c != [] && !IsSpace(c[0]) && !IsSpace(c[|c| - 1])
    ensures Trim(c + " " + JoinWithSpaces([])) == c
  {
    var raw := c + " " + JoinWithSpaces([]);
    assert raw == c + " ";
    assert raw[0] == c[0];
    assert LeadingSpace(raw) == 0;
    assert raw[0..] == raw;
    assert raw[..|raw| - 1] == c;
    assert TrailingSpace(c) == 0;
    assert IsSpace(raw[|raw| - 1]);
    assert TrailingSpace(raw) == 1;
    assert raw[..|raw| - 1] == c;
  }

  /** The joined arguments end where the last argument ends. */
  lemma {:induction false} JoinEndsWithLast(xs: seq<string>)
    requires xs != [] && xs[|xs| - 1] != ""
    ensures var j := JoinWithSpaces(xs);
      j != "" && j[|j| - 1] == xs[|xs| - 1][|xs[|xs| - 1]| - 1]
    decreases |xs|
  {
    if |xs| > 1 {
      JoinEndsWithLast(xs[1..]);
    }
  }

  /**
   * When the command has no surrounding whitespace and the last argument does
   * not end in whitespace, nothing is trimmed: the display command is the
   * command alone, or the command, a space and the space-joined arguments.
   */
  lemma CommandStringUntrimmed(s: Server)
    requires s.command != "" && !IsSpace(s.command[0]) && !IsSpace(s.command[|s.command| - 1])
    requires s.args != [] ==> var last := s.args[|s.args| - 1]; last != "" && !IsSpace(last[|last| - 1])
    ensures s.args == [] ==> CommandString(s) == s.command
    ensures s.args != [] ==> CommandString(s) == s.command + " " + JoinWithSpaces(s.args)
  {
    if s.args == [] {
      TrimBareCommand(s.command);
    } else {
      var line := s.command + " " + JoinWithSpaces(s.args);
      JoinEndsWithLast(s.args);
      assert line[0] == s.command[0];
      assert line[|line| - 1] == JoinWithSpaces(s.args)[|JoinWithSpaces(s.args)| - 1];
      TrimClean(line);
    }
  }

  /**
   * The configuration-document entry of a server: command and args always,
   * env only when non-empty, cwd only when non-empty, and `disabled` only as
   * `true`.
   */
  function ToMcpConfig(s: Server): (e: ConfigEntry)
    ensures e.command == s.command && e.args == Some(s.args)
    ensures e.env.Some? <==> |s.env| > 0
    ensures e.env.Some? ==> e.env.value == s.env
    ensures e.cwd.Some? <==> s.cwd.Some? && s.cwd.value != ""
    ensures e.cwd.Some? ==> e.cwd == s.cwd
    ensures e.disabled != Some(false)
    ensures e.disabled == Some(true) <==> s.disabled
  {
    ConfigEntry(
      s.command,
      Some(s.args),
      if |s.env| > 0 then Some(s.env) else None,
      if s.cwd.Some? && s.cwd.value != "" then s.cwd else None,
      if s.disabled then Some(true) else None)
  }

  /**
   * The metadata-document entry of a server; `now` is the query timestamp.
   * The constructor's `||` defaults read the description and both flags back
   * unchanged.
   */
  function ToServerMeta(s: Server, now: string): (e: ServerMeta)
    ensures e.lastQueried == Some(now)
    ensures StringOr(e.description, "") == s.description
    ensures BoolOr(e.expanded) == s.expanded && BoolOr(e.toolsExpanded) == s.toolsExpanded
    ensures e.description == Some(s.description)
    ensures e.expanded == Some(s.expanded) && e.toolsExpanded == Some(s.toolsExpanded)
  {
    ServerMeta(Some(s.description), Some(s.expanded), Some(s.toolsExpanded), Some(now))
  }

  /** A server as the dashboard keeps it: cwd normalised, tools sorted and owned. */
  predicate ServerWellFormed(s: Server)
  {
    && s.cwd != Some("")
    && ToolsSorted(s.tools)
    && forall i :: 0 <= i < |s.tools| ==> s.tools[i].serverName == s.name
  }

  /** Rebuilding a server from its two document entries restores every field
      but the tools, which travel in their own section. */
  lemma ServerRoundTrip(s: Server, now: string)
    requires s.cwd != Some("")
    ensures NewServer(s.name, ToMcpConfig(s), ToServerMeta(s, now)) == s.(tools := [])
  {
    if |s.env| == 0 {
      assert s.env == map[];
    }
  }

  // ===========================================================================
  // Profiles

  /**
   * The Profile constructor; `now` is the creation timestamp. A missing or
   * empty description becomes `''` and a missing list `[]`; anything else is
   * kept.
   */
  function NewProfile(name: string, description: Option<string>, enabledServers: Option<seq<string>>,
                      disabledServers: Option<seq<string>>, now: string): (p: Profile)
    ensures p.name == name && p.createdAt == Some(now) && p.lastUsed.None?
    ensures description.Some? && description.value != "" ==> p.description == description.value
    ensures description.None? || description.value == "" ==> p.description == ""
    ensures enabledServers.Some? ==> p.enabledServers == enabledServers.value
    ensures enabledServers.None? ==> p.enabledServers == []
    ensures disabledServers.Some? ==> p.disabledServers == disabledServers.value
    ensures disabledServers.None? ==> p.disabledServers == []
  {
    Profile(name, StringOr(description, ""), enabledServers.GetOr([]), disabledServers.GetOr([]), Some(now), None)
  }

  function MarkUsed(p: Profile, now: string): (r: Profile)
    ensures r.lastUsed == Some(now) && r.(lastUsed := p.lastUsed) == p
  {
    p.(lastUsed := Some(now))
  }

  /**
   * A profile's metadata entry: both lists and both timestamps verbatim, and
   * the description, which `|| ''` reads back unchanged.
   */
  function ProfileToMeta(p: Profile): (e: ProfileMeta)
    ensures e.description == Some(p.description) && StringOr(e.description, "") == p.description
    ensures e.enabledServers == Some(p.enabledServers) && e.disabledServers == Some(p.disabledServers)
    ensures e.createdAt == p.createdAt && e.lastUsed == p.lastUsed
  {
    ProfileMeta(Some(p.description), Some(p.enabledServers), Some(p.disabledServers), p.createdAt, p.lastUsed)
  }

  /** Profile.fromMetadata: the constructor's defaults, then the timestamps verbatim. */
  function ProfileFromMeta(name: string, meta: ProfileMeta): (p: Profile)
    ensures p.name == name && p.createdAt == meta.createdAt && p.lastUsed == meta.lastUsed
    ensures meta.description.Some? && meta.description.value != "" ==> p.description == meta.description.value
    ensures meta.description.None? || meta.description.value == "" ==> p.description == ""
    ensures meta.enabledServers.Some? ==> p.enabledServers == meta.enabledServers.value
    ensures meta.enabledServers.None? ==> p.enabledServers == []
    ensures meta.disabledServers.Some? ==> p.disabledServers == meta.disabledServers.value
    ensures meta.disabledServers.None? ==> p.disabledServers == []
  {
    var p := NewProfile(name, meta.description, meta.enabledServers, meta.disabledServers, "");
    p.(createdAt := meta.createdAt, lastUsed := meta.lastUsed)
  }

  lemma ProfileRoundTrip(p: Profile)
    ensures ProfileFromMeta(p.name, ProfileToMeta(p)) == p
  {
  }

  // ===========================================================================
  // The application state

  const EmptyState := AppState(map[], map[], "light", 0, None)

  /** A new application state: consistent, with no servers, profiles or tools, a light theme and no active profile. */
  lemma EmptyStateDefaults()
    ensures Consistent(EmptyState)
    ensures GetStatistics(EmptyState) == Statistics(0, 0, 0, 0, 0)
    ensures GetCurrentConfiguration(EmptyState) == Configuration([], [])
    ensures EmptyState.servers == map[] && EmptyState.profiles == map[]
    ensures EmptyState.theme == "light" && EmptyState.activeProfile.None?
  {
  }

  /** Every server and profile is stored under its own name; servers well formed. */
  predicate Consistent(st: AppState)
  {
    && (forall n :: n in st.servers ==> st.servers[n].name == n && ServerWellFormed(st.servers[n]))
    && (forall n :: n in st.profiles ==> st.profiles[n].name == n)
  }

  function EnabledNames(servers: map<string, Server>): set<string>
  {
    set n | n in servers && IsEnabled(servers[n])
  }

  function DisabledNames(servers: map<string, Server>): set<string>
  {
    set n | n in servers && !IsEnabled(servers[n])
  }

  /** How many of `names` are enabled servers (the dashboard filters and counts). */
  function CountEnabled(servers: map<string, Server>, names: seq<string>): nat
    requires forall i :: 0 <= i < |names| ==> names[i] in servers
  {
    if names == [] then 0
    else (if IsEnabled(servers[names[0]]) then 1 else 0) + CountEnabled(servers, names[1..])
  }

  /**
   * Counting along any enumeration without repeats gives the number of enabled
   * servers among the names, whatever the order.
   */
  lemma {:induction false} CountEnabledIsCardinality(servers: map<string, Server>, names: seq<string>)
    requires forall i :: 0 <= i < |names| ==> names[i] in servers
    requires Distinct(names)
    ensures CountEnabled(servers, names) == |set n | n in names && IsEnabled(servers[n])|
    decreases |names|
  {
    if names != [] {
      var rest := names[1..];
      DistinctTail(names);
      CountEnabledIsCardinality(servers, rest);
      var all := set n | n in names && IsEnabled(servers[n]);
      var tail := set n | n in rest && IsEnabled(servers[n]);
      if IsEnabled(servers[names[0]]) {
        assert all == tail + {names[0]};
      } else {
        assert all == tail;
      }
    }
  }

  /** Total number of tools over the servers named in `names`, in any order. */
  ghost function ToolTotal(servers: map<string, Server>, names: set<string>): nat
    requires names <= servers.Keys
    decreases names
  {
    if names == {} then 0
    else
      var n :| n in names;
      |servers[n].tools| + ToolTotal(servers, names - {n})
  }

  lemma {:induction false} ToolTotalRemove(servers: map<string, Server>, names: set<string>, x: string)
    requires names <= servers.Keys && x in names
    ensures ToolTotal(servers, names) == |servers[x].tools| + ToolTotal(servers, names - {x})
    decreases names
  {
    var n :| n in names && ToolTotal(servers, names) == |servers[n].tools| + ToolTotal(servers, names - {n});
    if n != x {
      ToolTotalRemove(servers, names - {n}, x);
      ToolTotalRemove(servers, names - {x}, n);
      assert names - {n} - {x} == names - {x} - {n};
    }
  }

  /** The dashboard's reduce: tool-list lengths summed along `names`. */
  function SumTools(servers: map<string, Server>, names: seq<string>): nat
    requires forall i :: 0 <= i < |names| ==> names[i] in servers
  {
    if names == [] then 0 else |servers[names[0]].tools| + SumTools(servers, names[1..])
  }

  /** Summing along any enumeration without repeats gives the order-independent total. */
  lemma {:induction false} SumToolsIsTotal(servers: map<string, Server>, names: seq<string>)
    requires forall i :: 0 <= i < |names| ==> names[i] in servers
    requires Distinct(names)
    ensures SumTools(servers, names) == ToolTotal(servers, set n | n in names)
    decreases |names|
  {
    var all := set n | n in names;
    if names == [] {
      assert all == {};
    } else {
      DistinctTail(names);
      SumToolsIsTotal(servers, names[1..]);
      assert all - {names[0]} == set n | n in names[1..];
      ToolTotalRemove(servers, all, names[0]);
    }
  }

  lemma PartitionSizes(servers: map<string, Server>)
    ensures |EnabledNames(servers)| + |DisabledNames(servers)| == |servers|
  {
    assert servers.Keys == EnabledNames(servers) + DisabledNames(servers);
    assert EnabledNames(servers) !! DisabledNames(servers);
  }

  lemma EnabledCount(servers: map<string, Server>)
    ensures CountEnabled(servers, Ascend(servers.Keys)) == |EnabledNames(servers)|
  {
    var names := Ascend(servers.Keys);
    AscendingDistinct(names);
    CountEnabledIsCardinality(servers, names);
    assert (set n | n in names && IsEnabled(servers[n])) == EnabledNames(servers);
  }

  lemma ToolCount(servers: map<string, Server>)
    ensures SumTools(servers, Ascend(servers.Keys)) == ToolTotal(servers, servers.Keys)
  {
    var names := Ascend(servers.Keys);
    AscendingDistinct(names);
    SumToolsIsTotal(servers, names);
    EnumeratedSet(names, servers.Keys);
  }

  /** The set of names in an enumeration of `keys` is `keys` itself. */
  lemma EnumeratedSet(names: seq<string>, keys: set<string>)
    requires forall x :: x in names <==> x in keys
    ensures (set n | n in names) == keys
  {
  }

  /**
   * getStatistics: the server count, how many are enabled and disabled, the
   * total number of tools, and the context utilisation.
   */
  function GetStatistics(st: AppState): (r: Statistics)
    ensures r.total == |st.servers|
    ensures r.enabled == |EnabledNames(st.servers)|
    ensures r.disabled == |DisabledNames(st.servers)|
    ensures r.enabled + r.disabled == r.total
    ensures r.totalTools == ToolTotal(st.servers, st.servers.Keys)
    ensures r.contextUtilization == st.contextUtilization
  {
    var names := Ascend(st.servers.Keys);
    EnabledCount(st.servers);
    ToolCount(st.servers);
    PartitionSizes(st.servers);
    var enabled := CountEnabled(st.servers, names);
    Statistics(|st.servers|, enabled, |st.servers| - enabled, SumTools(st.servers, names), st.contextUtilization)
  }

  /** Splits `names` into enabled and disabled servers, keeping their order. */
  function Partition(servers: map<string, Server>, names: seq<string>): (c: Configuration)
    requires forall i :: 0 <= i < |names| ==> names[i] in servers
    requires Ascending(names)
    ensures forall n :: n in c.enabled <==> n in names && IsEnabled(servers[n])
    ensures forall n :: n in c.disabled <==> n in names && !IsEnabled(servers[n])
    ensures Ascending(c.enabled) && Ascending(c.disabled)
    decreases |names|
  {
    if names == [] then Configuration([], [])
    else
      var rest := Partition(servers, names[1..]);
      var n := names[0];
      assert forall x :: x in names[1..] ==> Before(n, x) by {
        assert forall j :: 1 <= j < |names| ==> names[j] == names[1..][j - 1];
      }
      if IsEnabled(servers[n]) then
        PrependAscending(n, rest.enabled);
        Configuration([n] + rest.enabled, rest.disabled)
      else
        PrependAscending(n, rest.disabled);
        Configuration(rest.enabled, [n] + rest.disabled)
  }

  /**
   * getCurrentConfiguration: every server name lands in exactly one of the two
   * lists, `enabled` when the server is enabled and `disabled` otherwise.
   */
  function GetCurrentConfiguration(st: AppState): (c: Configuration)
    ensures forall n :: n in c.enabled <==> n in st.servers && IsEnabled(st.servers[n])
    ensures forall n :: n in c.disabled <==> n in st.servers && !IsEnabled(st.servers[n])
    ensures Ascending(c.enabled) && Ascending(c.disabled)
  {
    Partition(st.servers, Ascend(st.servers.Keys))
  }

  /** Sets the `disabled` flag of every server named in `names`; unknown names are skipped. */
  function SetDisabled(servers: map<string, Server>, names: seq<string>, flag: bool): (r: map<string, Server>)
    ensures r.Keys == servers.Keys
    ensures forall n :: n in servers ==>
      r[n] == if n in names then servers[n].(disabled := flag) else servers[n]
    decreases |names|
  {
    if names == [] then servers
    else
      var n := names[0];
      var next := if n in servers then servers[n := servers[n].(disabled := flag)] else servers;
      var r := SetDisabled(next, names[1..], flag);
      assert forall x :: x in names <==> x == n || x in names[1..];
      r
  }

  /**
   * AppState.applyProfile: servers the profile enables become enabled, then
   * servers it disables become disabled (so a name in both lists ends up
   * disabled); unknown names are ignored and other servers are untouched. The
   * profile becomes active, and the returned copy is marked as used at `now`.
   */
  function ApplyProfile(st: AppState, p: Profile, now: string): (r: (AppState, Profile))
    ensures r.0.servers.Keys == st.servers.Keys
    ensures forall n :: n in st.servers ==>
      r.0.servers[n] == st.servers[n].(disabled :=
        if n in p.disabledServers then true
        else if n in p.enabledServers then false
        else st.servers[n].disabled)
    ensures r.0 == st.(servers := r.0.servers, activeProfile := Some(p.name))
    ensures r.1 == p.(lastUsed := Some(now))
  {
    var enabled := SetDisabled(st.servers, p.enabledServers, false);
    var servers := SetDisabled(enabled, p.disabledServers, true);
    (st.(servers := servers, activeProfile := Some(p.name)), MarkUsed(p, now))
  }

  /** The map's values, in ascending key order. */
  function ValuesByKey<V(==)>(m: map<string, V>): (r: seq<V>)
    ensures |r| == |m|
    ensures forall i :: 0 <= i < |r| ==> r[i] in m.Values
    ensures forall n :: n in m ==> m[n] in r
  {
    var keys := Ascend(m.Keys);
    var r := seq(|keys|, i requires 0 <= i < |keys| => m[keys[i]]);
    assert forall n :: n in m ==> m[n] in r by {
      forall n | n in m ensures m[n] in r {
        var i :| 0 <= i < |keys| && keys[i] == n;
        assert r[i] == m[n];
      }
    }
    assert forall i :: 0 <= i < |r| ==> r[i] in m.Values by {
      forall i | 0 <= i < |r| ensures r[i] in m.Values {
        assert keys[i] in m;
      }
    }
    r
  }

  lemma ValuesByKeyAt<V>(m: map<string, V>, i: nat)
    requires i < |m|
    ensures i < |Ascend(m.Keys)| && ValuesByKey(m)[i] == m[Ascend(m.Keys)[i]]
  {
  }

  /**
   * getServersAlphabetically: every stored server exactly once, ordered by
   * name (strictly, as names are distinct map keys).
   */
  function ServersAlphabetically(st: AppState): (r: seq<Server>)
    ensures |r| == |st.servers|
    ensures forall i :: 0 <= i < |r| ==> r[i] in st.servers.Values
    ensures forall n :: n in st.servers ==> st.servers[n] in r
    ensures Consistent(st) ==> forall i, j :: 0 <= i < j < |r| ==> Before(r[i].name, r[j].name)
  {
    var r := ValuesByKey(st.servers);
    if Consistent(st) then
      var keys := Ascend(st.servers.Keys);
      assert forall i :: 0 <= i < |r| ==> r[i].name == keys[i] by {
        forall i | 0 <= i < |r| ensures r[i].name == keys[i] {
          ValuesByKeyAt(st.servers, i);
        }
      }
      r
    else r
  }

  /** getProfilesAlphabetically: every stored profile exactly once, ordered by name. */
  function ProfilesAlphabetically(st: AppState): (r: seq<Profile>)
    ensures |r| == |st.profiles|
    ensures forall i :: 0 <= i < |r| ==> r[i] in st.profiles.Values
    ensures forall n :: n in st.profiles ==> st.profiles[n] in r
    ensures Consistent(st) ==> forall i, j :: 0 <= i < j < |r| ==> Before(r[i].name, r[j].name)
  {
    var r := ValuesByKey(st.profiles);
    if Consistent(st) then
      var keys := Ascend(st.profiles.Keys);
      assert forall i :: 0 <= i < |r| ==> r[i].name == keys[i] by {
        forall i | 0 <= i < |r| ensures r[i].name == keys[i] {
          ValuesByKeyAt(st.profiles, i);
        }
      }
      r
    else r
  }

  /** getServer: the server stored under `name`, or nothing. */
  function GetServer(st: AppState, name: string): (r: Option<Server>)
    ensures r.Some? <==> name in st.servers
    ensures r.Some? ==> r.value == st.servers[name]
  {
    if name in st.servers then Some(st.servers[name]) else None
  }

  /** getProfile: the profile stored under `name`, or nothing. */
  function GetProfile(st: AppState, name: string): (r: Option<Profile>)
    ensures r.Some? <==> name in st.profiles
    ensures r.Some? ==> r.value == st.profiles[name]
  {
    if name in st.profiles then Some(st.profiles[name]) else None
  }

  /** setServer: afterwards the server is found under its name; nothing else changes. */
  function SetServer(st: AppState, s: Server): (r: AppState)
    ensures GetServer(r, s.name) == Some(s)
    ensures forall n :: n != s.name ==> GetServer(r, n) == GetServer(st, n)
    ensures r.(servers := st.servers) == st
  {
    st.(servers := st.servers[s.name := s])
  }

  /** setProfile: afterwards the profile is found under its name; nothing else changes. */
  function SetProfile(st: AppState, p: Profile): (r: AppState)
    ensures GetProfile(r, p.name) == Some(p)
    ensures forall n :: n != p.name ==> GetProfile(r, n) == GetProfile(st, n)
    ensures r.(profiles := st.profiles) == st
  {
    st.(profiles := st.profiles[p.name := p])
  }

  /**
   * AppState.deleteProfile: removes only that key, and clears the active
   * profile exactly when it was the deleted one.
   */
  function DeleteProfile(st: AppState, name: string): (r: AppState)
    ensures r.profiles.Keys == st.profiles.Keys - {name}
    ensures forall n :: n in r.profiles ==> r.profiles[n] == st.profiles[n]
    ensures st.activeProfile == Some(name) ==> r.activeProfile.None?
    ensures st.activeProfile != Some(name) ==> r.activeProfile == st.activeProfile
    ensures r.(profiles := st.profiles, activeProfile := st.activeProfile) == st
  {
    var profiles := map n | n in st.profiles && n != name :: st.profiles[n];
    st.(profiles := profiles, activeProfile := if st.activeProfile == Some(name) then None else st.activeProfile)
  }

  /** clear: no servers, profiles or active profile; theme and utilisation stay. */
  function Clear(st: AppState): (r: AppState)
    ensures r.servers == map[] && r.profiles == map[] && r.activeProfile.None?
    ensures r.theme == st.theme && r.contextUtilization == st.contextUtilization
  {
    st.(servers := map[], profiles := map[], activeProfile := None)
  }
}

=== FILE: order.dfy ===
/**
 * The string order used for every alphabetical view. The dashboard sorts with
 * `localeCompare`; this model fixes one total order, the lexicographic order on
 * code points, and every other module relies only on the total-order lemmas
 * proved here (so any other total order would do).
 */
module Order {

  /** `a` sorts at or before `b`. */
  predicate Below(a: string, b: string)
  {
    if |a| == 0 then true
    else if |b| == 0 then false
    else if a[0] != b[0] then a[0] < b[0]
    else Below(a[1..], b[1..])
  }

  /** `a` sorts strictly before `b`. */
  predicate Before(a: string, b: string)
  {
    Below(a, b) && a != b
  }

  lemma {:induction false} BelowReflexive(a: string)
    ensures Below(a, a)
  {
    if |a| > 0 {
      BelowReflexive(a[1..]);
    }
  }

  lemma {:induction false} BelowAntisymmetric(a: string, b: string)
    requires Below(a, b) && Below(b, a)
    ensures a == b
  {
    if |a| > 0 && |b| > 0 {
      BelowAntisymmetric(a[1..], b[1..]);
      assert a == [a[0]] + a[1..] && b == [b[0]] + b[1..];
    }
  }

  lemma {:induction false} BelowTransitive(a: string, b: string, c: string)
    requires Below(a, b) && Below(b, c)
    ensures Below(a, c)
  {
    if |a| > 0 && |b| > 0 && |c| > 0 && a[0] == b[0] && b[0] == c[0] {
      BelowTransitive(a[1..], b[1..], c[1..]);
    }
  }

  lemma {:induction false} BelowTotal(a: string, b: string)
    ensures Below(a, b) || Below(b, a)
  {
    if |a| > 0 && |b| > 0 && a[0] == b[0] {
      BelowTotal(a[1..], b[1..]);
    }
  }

  /** The order laws in quantified form, for proofs that sort. */
  lemma OrderLaws()
    ensures forall a :: Below(a, a)
    ensures forall a, b :: Below(a, b) && Below(b, a) ==> a == b
    ensures forall a, b, c :: Below(a, b) && Below(b, c) ==> Below(a, c)
    ensures forall a, b :: Below(a, b) || Below(b, a)
  {
    forall a ensures Below(a, a) { BelowReflexive(a); }
    forall a, b | Below(a, b) && Below(b, a) ensures a == b { BelowAntisymmetric(a, b); }
    forall a, b, c | Below(a, b) && Below(b, c) ensures Below(a, c) { BelowTransitive(a, b, c); }
    forall a, b ensures Below(a, b) || Below(b, a) { BelowTotal(a, b); }
  }

  /** `m` is the least element of `s`. */
  predicate IsLeast(m: string, s: set<string>)
  {
    m in s && forall x :: x in s ==> Below(m, x)
  }

  lemma {:induction false} LeastExists(s: set<string>)
    requires s != {}
    ensures exists m :: IsLeast(m, s)
    decreases s
  {
    var y :| y in s;
    if s == {y} {
      BelowReflexive(y);
      assert IsLeast(y, s);
    } else {
      LeastExists(s - {y});
      var m :| IsLeast(m, s - {y});
      BelowTotal(m, y);
      if Below(m, y) {
        assert IsLeast(m, s);
      } else {
        forall x | x in s ensures Below(y, x) {
          if x == y { BelowReflexive(y); } else { BelowTransitive(y, m, x); }
        }
        assert IsLeast(y, s);
      }
    }
  }

  /** The least element of a non-empty set of names. */
  function Least(s: set<string>): (m: string)
    requires s != {}
    ensures IsLeast(m, s)
  {
    LeastExists(s);
    OrderLaws();
    var m :| IsLeast(m, s);
    m
  }

  /** Strictly ascending: sorted, and therefore without repetitions. */
  predicate Ascending(names: seq<string>)
  {
    forall i, j :: 0 <= i < j < |names| ==> Before(names[i], names[j])
  }

  /** No name occurs twice. */
  predicate Distinct(names: seq<string>)
  {
    forall i, j :: 0 <= i < j < |names| ==> names[i] != names[j]
  }

  lemma AscendingDistinct(names: seq<string>)
    requires Ascending(names)
    ensures Distinct(names)
  {
  }

  /** Without repeats, the first name is not among the rest, and the rest has no repeats either. */
  lemma DistinctTail(names: seq<string>)
    requires Distinct(names) && names != []
    ensures names[0] !in names[1..] && Distinct(names[1..])
  {
    assert forall i :: 0 <= i < |names[1..]| ==> names[1..][i] == names[i + 1];
  }

  /** A name below everything in an ascending sequence may be put in front of it. */
  lemma PrependAscending(n: string, s: seq<string>)
    requires Ascending(s) && forall x :: x in s ==> Before(n, x)
    ensures Ascending([n] + s)
  {
    assert forall j :: 0 <= j < |s| ==> s[j] in s;
  }

  /** The names of `s` in ascending order; the model's one way to enumerate a map. */
  function Ascend(s: set<string>): (r: seq<string>)
    ensures Ascending(r)
    ensures forall x :: x in r <==> x in s
    ensures |r| == |s|
    decreases s
  {
    if s == {} then []
    else
      var m := Least(s);
      var rest := Ascend(s - {m});
      assert forall x :: x in rest ==> Before(m, x);
      [m] + rest
  }

  /** Two ascending sequences with the same elements are the same sequence. */
  lemma {:induction false} AscendingUnique(a: seq<string>, b: seq<string>)
    requires Ascending(a) && Ascending(b)
    requires forall x :: x in a <==> x in b
    ensures a == b
    decreases |a|
  {
    if a != [] { assert a[0] in b; }
    if b != [] { assert b[0] in a; }
    if a != [] && b != [] {
      if a[0] != b[0] {
        assert b[0] in a && a[0] in b;
        var i :| 0 <= i < |a| && a[i] == b[0];
        var j :| 0 <= j < |b| && b[j] == a[0];
        assert i > 0 && j > 0;
        assert Below(a[0], b[0]) && Below(b[0], a[0]);
        BelowAntisymmetric(a[0], b[0]);
      }
      forall x ensures x in a[1..] <==> x in b[1..] {
        if x in a[1..] {
          var i :| 1 <= i < |a| && a[i] == x;
          assert x != a[0] && x in b;
          var j :| 0 <= j < |b| && b[j] == x;
          assert j != 0 && b[1..][j - 1] == x;
        }
        if x in b[1..] {
          var j :| 1 <= j < |b| && b[j] == x;
          assert x != b[0] && x in a;
          var i :| 0 <= i < |a| && a[i] == x;
          assert i != 0 && a[1..][i - 1] == x;
        }
      }
      AscendingUnique(a[1..], b[1..]);
      assert a == [a[0]] + a[1..] && b == [b[0]] + b[1..];
    }
  }
}

=== FILE: properties.dfy ===
/**
 * Properties that relate several coordinator commands: the unknown-name
 * contract, one notification per successful command, the state invariant,
 * toggling, profile snapshots, listeners, loading the default metadata, and
 * the validity of the exported configuration.
 */
module Properties {
  import opened Wrappers
  import opened Documents
  import opened Order
  import opened Models
  import opened Coordinator
  import Validation

  /** A command naming an absent server or profile changes nothing and announces nothing. */
  lemma UnknownNameIsNoOp(m: Manager, c: Command)
    requires !Known(m.state, c)
    ensures Step(m, c) == m
  {
  }

  /** A command whose target exists announces exactly one event, of its own kind, to every listener in order. */
  lemma KnownCommandEmitsOnce(m: Manager, c: Command)
    requires Known(m.state, c)
    ensures Emits(m, Step(m, c), EventOf(m.state, c))
  {
    match c
    case FlipEnabled(n) => assert Step(m, c) == ToggleServer(m, n).0;
    case FlipExpanded(n) => assert Step(m, c) == ToggleServerExpanded(m, n).0;
    case FlipToolsExpanded(n) => assert Step(m, c) == ToggleToolsExpanded(m, n).0;
    case SetTheme(t) => assert Step(m, c) == UpdateTheme(m, t);
    case SetContext(p) => assert Step(m, c) == UpdateContextUtilization(m, p);
    case Apply(n, now) => assert Step(m, c) == Coordinator.ApplyProfile(m, n, now).0;
    case Save(n, d, now) => assert Step(m, c) == SaveProfile(m, n, d, now).0;
    case Delete(n) => assert Step(m, c) == Coordinator.DeleteProfile(m, n).0;
    case Describe(n, d) => assert Step(m, c) == UpdateServerDescription(m, n, d);
    case ReplaceTools(n, list) => assert Step(m, c) == UpdateServerTools(m, n, list);
  }

  /** Every command keeps servers and profiles stored under their own names and servers well formed. */
  lemma StepPreservesConsistency(m: Manager, c: Command)
    requires Consistent(m.state)
    ensures Consistent(Step(m, c).state)
  {
    match c
    case FlipEnabled(n) => FlagsConsistent(m, n);
    case FlipExpanded(n) => FlagsConsistent(m, n);
    case FlipToolsExpanded(n) => FlagsConsistent(m, n);
    case Describe(n, d) => DescribeConsistent(m, n, d);
    case ReplaceTools(n, list) => ReplaceToolsStepConsistent(m, n, list);
    case Apply(n, now) => ApplyConsistent(m, n, now);
    case Save(n, d, now) => SaveConsistent(m, n, d, now);
    case Delete(n) => SettersConsistent(m, n, "", 0);
    case SetTheme(t) => SettersConsistent(m, "", t, 0);
    case SetContext(p) => SettersConsistent(m, "", "", p);
  }

  /** Deleting a profile and changing a setting keep the state consistent. */
  lemma SettersConsistent(m: Manager, n: string, theme: string, percentage: int)
    requires Consistent(m.state)
    ensures Consistent(Coordinator.DeleteProfile(m, n).0.state)
    ensures Consistent(UpdateTheme(m, theme).state)
    ensures Consistent(UpdateContextUtilization(m, percentage).state)
    ensures Consistent(Step(m, Delete(n)).state)
    ensures Consistent(Step(m, SetTheme(theme)).state)
    ensures Consistent(Step(m, SetContext(percentage)).state)
  {
  }

  /** The three flag toggles keep the state consistent. */
  lemma FlagsConsistent(m: Manager, n: string)
    requires Consistent(m.state)
    ensures Consistent(ToggleServer(m, n).0.state)
    ensures Consistent(ToggleServerExpanded(m, n).0.state)
    ensures Consistent(ToggleToolsExpanded(m, n).0.state)
    ensures Consistent(Step(m, FlipEnabled(n)).state)
    ensures Consistent(Step(m, FlipExpanded(n)).state)
    ensures Consistent(Step(m, FlipToolsExpanded(n)).state)
  {
    var servers := m.state.servers;
    if n in servers {
      ReplaceServerConsistent(m.state, n, servers[n].(disabled := !servers[n].disabled));
      ReplaceServerConsistent(m.state, n, servers[n].(expanded := !servers[n].expanded));
      ReplaceServerConsistent(m.state, n, servers[n].(toolsExpanded := !servers[n].toolsExpanded));
    }
  }

  lemma DescribeConsistent(m: Manager, n: string, d: string)
    requires Consistent(m.state)
    ensures Consistent(UpdateServerDescription(m, n, d).state)
    ensures Consistent(Step(m, Describe(n, d)).state)
  {
    if n in m.state.servers {
      ReplaceServerConsistent(m.state, n, m.state.servers[n].(description := d));
    }
  }

  /** Applying a profile changes only `disabled` flags and the profile's last use. */
  lemma ApplyConsistent(m: Manager, name: string, now: string)
    requires Consistent(m.state)
    ensures Consistent(Coordinator.ApplyProfile(m, name, now).0.state)
    ensures Consistent(Step(m, Apply(name, now)).state)
  {
    if name in m.state.profiles {
      var st := Coordinator.ApplyProfile(m, name, now).0.state;
      forall n | n in st.servers ensures st.servers[n].name == n && ServerWellFormed(st.servers[n]) {
        assert st.servers[n].(disabled := m.state.servers[n].disabled) == m.state.servers[n];
      }
    }
  }

  lemma SaveConsistent(m: Manager, n: string, d: string, now: string)
    requires Consistent(m.state)
    ensures Consistent(SaveProfile(m, n, d, now).0.state)
    ensures Consistent(Step(m, Save(n, d, now)).state)
  {
  }

  /** Putting a well-formed server under its own name keeps the state consistent. */
  lemma ReplaceServerConsistent(st: AppState, n: string, s: Server)
    requires Consistent(st) && n in st.servers
    requires s.name == n && s.cwd == st.servers[n].cwd && s.tools == st.servers[n].tools
    ensures Consistent(st.(servers := st.servers[n := s]))
  {
  }

  lemma ReplaceToolsStepConsistent(m: Manager, n: string, list: seq<ToolData>)
    requires Consistent(m.state)
    ensures Consistent(Step(m, ReplaceTools(n, list)).state)
  {
    assert Step(m, ReplaceTools(n, list)) == UpdateServerTools(m, n, list);
    ReplaceToolsConsistent(m, n, list);
  }

  /** Replacing a server's tools keeps every tool owned by that server. */
  lemma ReplaceToolsConsistent(m: Manager, n: string, list: seq<ToolData>)
    requires Consistent(m.state)
    ensures Consistent(UpdateServerTools(m, n, list).state)
  {
    if n in m.state.servers {
      var st := UpdateServerTools(m, n, list).state;
      var tools := st.servers[n].tools;
      var made := MakeTools(n, list);
      forall i | 0 <= i < |tools| ensures tools[i].serverName == n {
        assert tools[i] in multiset(made);
        var j :| 0 <= j < |made| && made[j] == tools[i];
      }
      assert ServerWellFormed(st.servers[n]);
    }
  }

  /** Toggling a server twice restores the state. */
  lemma ToggleServerTwice(m: Manager, name: string)
    requires name in m.state.servers
    ensures ToggleServer(ToggleServer(m, name).0, name).0.state == m.state
  {
    var s := m.state.servers[name];
    assert s.(disabled := !s.disabled).(disabled := s.disabled) == s;
  }

  /**
   * After a toggle the counts stay consistent: the total is unchanged and the
   * enabled count moves by one in the direction of the flip.
   */
  lemma {:induction false} ToggleStatistics(m: Manager, name: string)
    requires name in m.state.servers
    ensures var before := GetStatistics(m.state);
      var after := GetStatistics(ToggleServer(m, name).0.state);
      && after.total == before.total
      && after.enabled + after.disabled == after.total
      && (m.state.servers[name].disabled ==> after.enabled == before.enabled + 1)
      && (!m.state.servers[name].disabled ==> after.enabled + 1 == before.enabled)
  {
    var servers := m.state.servers;
    var s := servers[name];
    var toggled := servers[name := s.(disabled := !s.disabled)];
    assert ToggleServer(m, name).0.state.servers == toggled;
    if s.disabled {
      assert EnabledNames(toggled) == EnabledNames(servers) + {name};
      assert name !in EnabledNames(servers);
    } else {
      assert EnabledNames(servers) == EnabledNames(toggled) + {name};
      assert name !in EnabledNames(toggled);
    }
  }

  /** After saving, a server is in the new profile's disabled list exactly when it is disabled. */
  lemma SavedPartition(m: Manager, name: string, description: string, saved: string)
    ensures var m1 := SaveProfile(m, name, description, saved).0;
      && m1.state.servers == m.state.servers
      && name in m1.state.profiles
      && (forall n :: n in m.state.servers ==>
            (n in m1.state.profiles[name].disabledServers <==> m.state.servers[n].disabled)
            && (n in m1.state.profiles[name].enabledServers <==> !m.state.servers[n].disabled))
  {
  }

  /** A saved profile holds exactly the two lists getCurrentConfiguration reports at that moment. */
  lemma SavedListsAreConfiguration(m: Manager, name: string, description: string, now: string)
    ensures var p := SaveProfile(m, name, description, now).1;
      && p.enabledServers == GetCurrentConfiguration(m.state).enabled
      && p.disabledServers == GetCurrentConfiguration(m.state).disabled
  {
    var p := SaveProfile(m, name, description, now).1;
    var config := GetCurrentConfiguration(m.state);
    AscendingUnique(p.enabledServers, config.enabled);
    AscendingUnique(p.disabledServers, config.disabled);
  }

  /**
   * Saving a profile and applying it straight away leaves every server as it
   * was and makes that profile active.
   */
  lemma SaveThenApply(m: Manager, name: string, description: string, saved: string, used: string)
    ensures var m1 := SaveProfile(m, name, description, saved).0;
      var r := Coordinator.ApplyProfile(m1, name, used);
      && r.1
      && r.0.state.servers == m.state.servers
      && r.0.state.activeProfile == Some(name)
  {
    var m1 := SaveProfile(m, name, description, saved).0;
    SavedPartition(m, name, description, saved);
    SnapshotRestores(m.state.servers, m1, name, used);
  }

  /** Applying a profile whose lists match the servers' flags changes no server. */
  lemma SnapshotRestores(servers: map<string, Server>, m1: Manager, name: string, used: string)
    requires name in m1.state.profiles && m1.state.servers.Keys == servers.Keys
    requires forall n :: n in servers ==>
      && m1.state.servers[n].(disabled := servers[n].disabled) == servers[n]
      && (n in m1.state.profiles[name].disabledServers <==> servers[n].disabled)
      && (n in m1.state.profiles[name].enabledServers <==> !servers[n].disabled)
    ensures var r := Coordinator.ApplyProfile(m1, name, used);
      r.1 && r.0.state.servers == servers && r.0.state.activeProfile == Some(m1.state.profiles[name].name)
  {
    var r := Coordinator.ApplyProfile(m1, name, used);
    forall n | n in servers ensures r.0.state.servers[n] == servers[n] {
    }
  }

  /**
   * A saved profile is a snapshot: toggling a server after saving and then
   * applying the profile puts every server back as it was when saved.
   */
  lemma SaveToggleApply(m: Manager, name: string, description: string, server: string, saved: string, used: string)
    requires server in m.state.servers
    ensures var m1 := SaveProfile(m, name, description, saved).0;
      var m2 := ToggleServer(m1, server).0;
      var r := Coordinator.ApplyProfile(m2, name, used);
      && r.1
      && r.0.state.servers == m.state.servers
      && r.0.state.activeProfile == Some(name)
  {
    var m1 := SaveProfile(m, name, description, saved).0;
    SavedPartition(m, name, description, saved);
    var m2 := ToggleServer(m1, server).0;
    ToggleOnlyFlips(m1, server);
    SnapshotRestores(m.state.servers, m2, name, used);
  }

  /** Toggling changes no profile and no server field other than `disabled`. */
  lemma ToggleOnlyFlips(m: Manager, server: string)
    ensures var m2 := ToggleServer(m, server).0;
      && m2.state.profiles == m.state.profiles
      && m2.state.servers.Keys == m.state.servers.Keys
      && forall n :: n in m.state.servers ==>
           m2.state.servers[n].(disabled := m.state.servers[n].disabled) == m.state.servers[n]
  {
  }

  /** Deleting the profile that was just applied leaves no active profile. */
  lemma ApplyThenDelete(m: Manager, name: string, now: string)
    requires Consistent(m.state) && name in m.state.profiles
    ensures var m1 := Coordinator.ApplyProfile(m, name, now).0;
      var r := Coordinator.DeleteProfile(m1, name);
      r.1 && r.0.state.activeProfile.None? && name !in r.0.state.profiles
  {
  }

  /** Unsubscribing a newly subscribed listener restores the listener list. */
  lemma SubscribeThenUnsubscribe(m: Manager, l: Listener)
    requires l !in m.listeners
    ensures Unsubscribe(Subscribe(m, l), l) == m
  {
    var ls := m.listeners + [l];
    var i := FirstIndex(ls, l);
    assert ls[..|m.listeners|] == m.listeners;
  }

  /** A listener subscribed twice: one unsubscribe removes its earlier occurrence only. */
  lemma UnsubscribeRemovesFirst(m: Manager, l: Listener)
    requires l in m.listeners
    ensures var r := Unsubscribe(Subscribe(m, l), l);
      l in r.listeners && |r.listeners| == |m.listeners|
      && r.listeners[|r.listeners| - 1] == l
  {
    var ls := m.listeners + [l];
    var i := FirstIndex(ls, l);
    var j := FirstIndex(m.listeners, l);
    assert ls[j] == l;
    assert forall k :: 0 <= k < i ==> ls[..i][k] == ls[k];
    var r := ls[..i] + ls[i + 1..];
    assert Unsubscribe(Subscribe(m, l), l).listeners == r;
    assert r[|r| - 1] == ls[|ls| - 1] == l;
  }

  lemma {:induction false} NoToolsTotal(servers: map<string, Server>, names: set<string>)
    requires names <= servers.Keys
    requires forall n :: n in servers ==> servers[n].tools == []
    ensures ToolTotal(servers, names) == 0
    decreases names
  {
    if names != {} {
      var n :| n in names;
      ToolTotalRemove(servers, names, n);
      NoToolsTotal(servers, names - {n});
    }
  }

  /**
   * Loading any configuration with the default metadata: light theme, no
   * utilisation, no active or stored profiles, and every server with an empty
   * description, collapsed, and without tools.
   */
  lemma LoadDefaultMetadata(m: Manager, cfg: ConfigDoc, now: string)
    ensures var st := LoadFromFiles(m, cfg, Validation.CreateDefaultMetadata(now)).state;
      && st.theme == "light" && st.contextUtilization == 0 && st.activeProfile.None?
      && st.profiles == map[]
      && st.servers.Keys == ConfigNames(cfg)
      && GetStatistics(st).totalTools == 0
      && forall n :: n in st.servers ==>
           st.servers[n].description == "" && !st.servers[n].expanded
           && !st.servers[n].toolsExpanded && st.servers[n].tools == []
  {
    var st := LoadFromFiles(m, cfg, Validation.CreateDefaultMetadata(now)).state;
    DefaultMetadataNoTools(m, cfg, now);
    NoToolsTotal(st.servers, st.servers.Keys);
  }

  /** The default metadata has no tools sections, so every loaded server has no tools. */
  lemma DefaultMetadataNoTools(m: Manager, cfg: ConfigDoc, now: string)
    ensures var st := LoadFromFiles(m, cfg, Validation.CreateDefaultMetadata(now)).state;
      forall n :: n in st.servers ==> st.servers[n].tools == []
  {
  }

  /** The configured entries of a configuration document, none when the server map is absent. */
  function ConfiguredEntries(cfg: ConfigDoc): map<string, ConfigEntry>
  {
    if cfg.mcpServers.Some? then cfg.mcpServers.value else map[]
  }

  /**
   * After loadFromFiles the statistics count the configured entries: a
   * server is disabled exactly when its entry says `disabled: true`.
   */
  lemma LoadedStatistics(m: Manager, cfg: ConfigDoc, meta: MetaDoc)
    ensures var stats := GetStatistics(LoadFromFiles(m, cfg, meta).state);
      && stats.total == |ConfiguredEntries(cfg)|
      && stats.enabled == |set n | n in ConfiguredEntries(cfg) && ConfiguredEntries(cfg)[n].disabled != Some(true)|
      && stats.disabled == |set n | n in ConfiguredEntries(cfg) && ConfiguredEntries(cfg)[n].disabled == Some(true)|
  {
    var servers := LoadState(m.state, cfg, meta).servers;
    var entries := ConfiguredEntries(cfg);
    forall n | n in servers
      ensures IsEnabled(servers[n]) <==> entries[n].disabled != Some(true)
    {
      assert servers[n].(tools := []) == NewServer(n, entries[n], ServerMetaFor(meta, n));
    }
    StatusFollowsEntries(servers, entries);
  }

  /** Servers whose status follows their entries' `disabled` flags split as the entries do. */
  lemma StatusFollowsEntries(servers: map<string, Server>, entries: map<string, ConfigEntry>)
    requires servers.Keys == entries.Keys
    requires forall n :: n in servers ==> (IsEnabled(servers[n]) <==> entries[n].disabled != Some(true))
    ensures EnabledNames(servers) == set n | n in entries && entries[n].disabled != Some(true)
    ensures DisabledNames(servers) == set n | n in entries && entries[n].disabled == Some(true)
  {
  }

  /** The default metadata document is exactly what a new coordinator exports. */
  lemma DefaultIsFreshExport(now: string)
    ensures ExportToMetadata(Initial, now) == Validation.CreateDefaultMetadata(now)
  {
  }

  /**
   * The exported configuration passes validateMcpConfig exactly when every
   * server has a non-empty command, which writeMcpConfig requires.
   */
  lemma ExportedConfigValid(m: Manager)
    ensures Validation.Validate(EncodeConfig(ExportToMcpConfig(m))).Valid? <==>
      forall n :: n in m.state.servers ==> m.state.servers[n].command != ""
  {
    Validation.EncodedConfigVerdict(ExportToMcpConfig(m));
  }
}

=== FILE: roundtrip.dfy ===
/**
 * Saving and reloading: writing the state out with exportToMcpConfig and
 * exportToMetadata and reading both documents back with loadFromFiles
 * restores the state exactly, as long as the state is one the dashboard
 * can keep (servers under their own names, tools sorted and uniquely named,
 * a non-empty theme and no empty active-profile name).
 */
module RoundTrip {
  import opened Wrappers
  import opened Documents
  import opened Order
  import opened Models
  import opened Coordinator

  /** A state that survives a save and a reload unchanged. */
  predicate Reloadable(st: AppState)
  {
    && Consistent(st)
    && st.theme != ""
    && st.activeProfile != Some("")
    && forall n :: n in st.servers ==> ToolsDistinct(st.servers[n].tools)
  }

  /** With distinct names, every tool is the last of its name, so the section holds it under its name. */
  lemma ToolsToMetaAt(ts: seq<Tool>, i: int)
    requires ToolsDistinct(ts) && 0 <= i < |ts|
    ensures ts[i].name in ToolsToMeta(ts) && ToolsToMeta(ts)[ts[i].name] == ToolToMeta(ts[i])
  {
    assert LastOfName(ts, i);
  }

  /** Sorted and uniquely named tools have strictly ascending names. */
  lemma SortedDistinctAscending(ts: seq<Tool>)
    requires ToolsSorted(ts) && ToolsDistinct(ts)
    ensures Ascending(ToolNames(ts))
  {
  }

  /** The tools section of distinct tools holds exactly their names. */
  lemma SectionNames(ts: seq<Tool>)
    requires ToolsDistinct(ts)
    ensures forall x :: x in ToolsToMeta(ts) <==> x in ToolNames(ts)
  {
    forall x ensures x in ToolsToMeta(ts) <==> x in ToolNames(ts) {
      if x in ToolNames(ts) {
        var i :| 0 <= i < |ts| && ToolNames(ts)[i] == x;
        ToolsToMetaAt(ts, i);
      }
      if x in ToolsToMeta(ts) {
        var i :| 0 <= i < |ts| && ts[i].name == x;
        assert ToolNames(ts)[i] == x;
      }
    }
  }

  /** Reading a tools section back lists the same names in the same order. */
  lemma RebuildNames(name: string, ts: seq<Tool>)
    requires ToolsSorted(ts) && ToolsDistinct(ts)
    ensures ToolNames(BuildTools(name, ToolsToMeta(ts))) == ToolNames(ts)
  {
    SortedDistinctAscending(ts);
    SectionNames(ts);
    AscendingUnique(ToolNames(BuildTools(name, ToolsToMeta(ts))), ToolNames(ts));
  }

  /**
   * A server's tools section, read back for that server, rebuilds exactly
   * the tools it was written from.
   */
  lemma RebuildTools(name: string, ts: seq<Tool>)
    requires ToolsSorted(ts) && ToolsDistinct(ts)
    requires forall i :: 0 <= i < |ts| ==> ts[i].serverName == name
    ensures BuildTools(name, ToolsToMeta(ts)) == ts
  {
    RebuildNames(name, ts);
    EveryToolRebuilt(name, ts);
  }

  lemma EveryToolRebuilt(name: string, ts: seq<Tool>)
    requires ToolsDistinct(ts) && forall i :: 0 <= i < |ts| ==> ts[i].serverName == name
    requires ToolNames(BuildTools(name, ToolsToMeta(ts))) == ToolNames(ts)
    ensures |BuildTools(name, ToolsToMeta(ts))| == |ts|
    ensures forall i :: 0 <= i < |ts| ==> BuildTools(name, ToolsToMeta(ts))[i] == ts[i]
  {
    forall i | 0 <= i < |ts| ensures BuildTools(name, ToolsToMeta(ts))[i] == ts[i] {
      RebuildToolAt(name, ts, i);
    }
  }

  lemma RebuildToolAt(name: string, ts: seq<Tool>, i: int)
    requires ToolsDistinct(ts) && 0 <= i < |ts| && ts[i].serverName == name
    requires ToolNames(BuildTools(name, ToolsToMeta(ts))) == ToolNames(ts)
    ensures BuildTools(name, ToolsToMeta(ts))[i] == ts[i]
  {
    var r := BuildTools(name, ToolsToMeta(ts));
    assert r[i].name == ToolNames(r)[i] == ToolNames(ts)[i] == ts[i].name;
    ToolsToMetaAt(ts, i);
  }

  /** A server read back from its configuration entry and its two metadata sections. */
  lemma ServerFromDocuments(s: Server, now: string, meta: MetaDoc)
    requires ServerWellFormed(s) && ToolsDistinct(s.tools)
    requires ServerMetaFor(meta, s.name) == ToServerMeta(s, now)
    requires ToolsFor(meta, s.name) == ToolsToMeta(s.tools)
    ensures LoadServer(s.name, ToMcpConfig(s), meta) == s
  {
    ServerRoundTrip(s, now);
    RebuildTools(s.name, s.tools);
  }

  /** The metadata document holds each server's entry and its tools section (none for no tools). */
  lemma ExportedSections(m: Manager, n: string, now: string)
    requires n in m.state.servers
    ensures var meta := ExportToMetadata(m, now);
      && ServerMetaFor(meta, n) == ToServerMeta(m.state.servers[n], now)
      && ToolsFor(meta, n) == ToolsToMeta(m.state.servers[n].tools)
  {
  }

  /** Every server is read back from the two exported documents as it was. */
  lemma ServersReload(m: Manager, now: string)
    requires Reloadable(m.state)
    ensures LoadServers(ExportToMcpConfig(m), ExportToMetadata(m, now)) == m.state.servers
  {
    var servers := LoadServers(ExportToMcpConfig(m), ExportToMetadata(m, now));
    ReloadedNames(m, now);
    forall n | n in m.state.servers ensures servers[n] == m.state.servers[n] {
      ServerReloads(m, n, now);
    }
  }

  lemma ReloadedNames(m: Manager, now: string)
    ensures LoadServers(ExportToMcpConfig(m), ExportToMetadata(m, now)).Keys == m.state.servers.Keys
  {
  }

  lemma ServerReloads(m: Manager, n: string, now: string)
    requires Reloadable(m.state) && n in m.state.servers
    ensures n in LoadServers(ExportToMcpConfig(m), ExportToMetadata(m, now))
    ensures LoadServers(ExportToMcpConfig(m), ExportToMetadata(m, now))[n] == m.state.servers[n]
  {
    var cfg := ExportToMcpConfig(m);
    var meta := ExportToMetadata(m, now);
    var s := m.state.servers[n];
    assert s.name == n && ServerWellFormed(s) && ToolsDistinct(s.tools);
    ExportedSections(m, n, now);
    ServerFromDocuments(s, now, meta);
    assert LoadServers(cfg, meta)[n] == LoadServer(n, cfg.mcpServers.value[n], meta);
  }

  lemma ProfilesReload(m: Manager, now: string)
    requires Reloadable(m.state)
    ensures LoadProfiles(ExportToMetadata(m, now)) == m.state.profiles
  {
    var profiles := LoadProfiles(ExportToMetadata(m, now));
    forall n | n in m.state.profiles ensures profiles[n] == m.state.profiles[n] {
      assert m.state.profiles[n].name == n;
      ProfileRoundTrip(m.state.profiles[n]);
    }
  }

  /** Exporting and then loading the two documents gives back the state it started from. */
  lemma LoadExportRoundTrip(m0: Manager, m: Manager, now: string)
    requires Reloadable(m.state)
    ensures LoadFromFiles(m0, ExportToMcpConfig(m), ExportToMetadata(m, now)).state == m.state
  {
    ServersReload(m, now);
    ProfilesReload(m, now);
  }

  /** The loaded state is itself reloadable, so saving and loading again changes nothing. */
  lemma ReloadIsStable(m0: Manager, m: Manager, now: string, later: string)
    requires Reloadable(m.state)
    ensures var reloaded := LoadFromFiles(m0, ExportToMcpConfig(m), ExportToMetadata(m, now));
      && Reloadable(reloaded.state)
      && LoadFromFiles(m0, ExportToMcpConfig(reloaded), ExportToMetadata(reloaded, later)).state == m.state
  {
    var reloaded := LoadFromFiles(m0, ExportToMcpConfig(m), ExportToMetadata(m, now));
    LoadExportRoundTrip(m0, m, now);
    LoadExportRoundTrip(m0, reloaded, later);
  }
}

=== FILE: validation.dfy ===
/**
 * The structural check that gates every read and write of the configuration
 * document, and the metadata document used when none is stored.
 */
module Validation {
  import opened Wrappers
  import opened Documents
  import Order

  /** The property of a server entry that the check found wrong. */
  datatype Field = Command | Args | Env | Cwd | Disabled

  datatype Failure =
    | NotAnObject                           // the document itself
    | NoServersObject                       // its "mcpServers" property
    | BadServer(name: string, field: Field) // one server entry

  datatype Verdict = Valid | Invalid(failure: Failure)

  /** The entry is an object with a non-empty string `command`. */
  predicate CommandOk(entry: Json)
  {
    entry.JObject? && "command" in entry.fields && entry.fields["command"].JString? && entry.fields["command"].s != ""
  }

  /** The entry is an object whose `args` is an array. */
  predicate ArgsOk(entry: Json)
  {
    entry.JObject? && "args" in entry.fields && entry.fields["args"].JArray?
  }

  /** A truthy `env` is of object type. */
  predicate EnvOk(entry: Json)
  {
    entry.JObject? && "env" in entry.fields && Truthy(entry.fields["env"]) ==> TypeofObject(entry.fields["env"])
  }

  /** A truthy `cwd` is a string. */
  predicate CwdOk(entry: Json)
  {
    entry.JObject? && "cwd" in entry.fields && Truthy(entry.fields["cwd"]) ==> entry.fields["cwd"].JString?
  }

  /** A present `disabled` is a boolean. */
  predicate DisabledOk(entry: Json)
  {
    entry.JObject? && "disabled" in entry.fields ==> entry.fields["disabled"].JBool?
  }

  /** A server entry with every property the dashboard relies on. */
  predicate ServerOk(entry: Json)
  {
    CommandOk(entry) && ArgsOk(entry) && EnvOk(entry) && CwdOk(entry) && DisabledOk(entry)
  }

  /** A configuration document the dashboard accepts. */
  predicate WellFormedConfig(config: Json)
  {
    && config.JObject?
    && "mcpServers" in config.fields
    && AllServersOk(config.fields["mcpServers"])
  }

  /** An object or array of server entries, every one of them well formed. */
  predicate AllServersOk(servers: Json)
  {
    match servers
    case JObject(fields) => forall name :: name in fields ==> ServerOk(fields[name])
    case JArray(items) => forall i :: 0 <= i < |items| ==> ServerOk(items[i])
    case _ => false
  }

  /** Decimal digits of an array index, the key `Object.entries` reports for it. */
  function Decimal(n: nat): string
  {
    var digit := ['0' + (n % 10) as char];
    if n < 10 then digit else Decimal(n / 10) + digit
  }

  /** The (name, entry) pairs of an object or array, as `Object.entries` lists them. */
  function Entries(servers: Json): seq<(string, Json)>
  {
    match servers
    case JObject(fields) =>
      var names := Order.Ascend(fields.Keys);
      seq(|names|, i requires 0 <= i < |names| => (names[i], fields[names[i]]))
    case JArray(items) =>
      seq(|items|, i requires 0 <= i < |items| => (Decimal(i), items[i]))
    case _ => []
  }

  /**
   * The first property of a server entry that fails, in the order the
   * dashboard tests them. A null entry makes the dashboard throw on reading
   * `command`; that rejection is reported here as a bad command.
   */
  function ServerFault(entry: Json): (r: Option<Field>)
    ensures r.None? <==> ServerOk(entry)
    ensures r == Some(Command) <==> !CommandOk(entry)
    ensures r == Some(Args) <==> CommandOk(entry) && !ArgsOk(entry)
    ensures r == Some(Env) <==> CommandOk(entry) && ArgsOk(entry) && !EnvOk(entry)
    ensures r == Some(Cwd) <==> CommandOk(entry) && ArgsOk(entry) && EnvOk(entry) && !CwdOk(entry)
    ensures r == Some(Disabled) <==> CommandOk(entry) && ArgsOk(entry) && EnvOk(entry) && CwdOk(entry) && !DisabledOk(entry)
  {
    var command := Property(entry, "command");
    var args := Property(entry, "args");
    var env := Property(entry, "env");
    var cwd := Property(entry, "cwd");
    var disabled := Property(entry, "disabled");
    if !(command.Some? && Truthy(command.value) && command.value.JString?) then Some(Command)
    else if !(args.Some? && args.value.JArray?) then Some(Args)
    else if env.Some? && Truthy(env.value) && !TypeofObject(env.value) then Some(Env)
    else if cwd.Some? && Truthy(cwd.value) && !cwd.value.JString? then Some(Cwd)
    else if disabled.Some? && !disabled.value.JBool? then Some(Disabled)
    else None
  }

  /** Every entry before position `i` passes. */
  predicate OkBefore(entries: seq<(string, Json)>, i: int)
    requires 0 <= i <= |entries|
  {
    forall k :: 0 <= k < i ==> ServerOk(entries[k].1)
  }

  /**
   * Checks the entries in order and reports the first bad one: its name and
   * the first rule it breaks, every entry before it passing.
   */
  function FirstFault(entries: seq<(string, Json)>): (r: Verdict)
    ensures r.Valid? <==> forall i :: 0 <= i < |entries| ==> ServerOk(entries[i].1)
    ensures r.Invalid? ==> r.failure.BadServer?
    ensures r.Invalid? ==> exists i :: 0 <= i < |entries| && entries[i].0 == r.failure.name
                                      && ServerFault(entries[i].1) == Some(r.failure.field)
                                      && OkBefore(entries, i)
  {
    if entries == [] then Valid
    else
      match ServerFault(entries[0].1)
      case Some(field) => Invalid(BadServer(entries[0].0, field))
      case None =>
        var rest := FirstFault(entries[1..]);
        if rest.Invalid? then
          var i :| 0 <= i < |entries[1..]| && entries[1..][i].0 == rest.failure.name
                   && ServerFault(entries[1..][i].1) == Some(rest.failure.field)
                   && OkBefore(entries[1..], i);
          OkBeforeCons(entries, i);
          rest
        else
          assert forall i :: 1 <= i < |entries| ==> entries[i] == entries[1..][i - 1];
          rest
  }

  /** A passing first entry followed by `i` passing entries makes `i + 1` passing entries. */
  lemma OkBeforeCons(entries: seq<(string, Json)>, i: int)
    requires entries != [] && ServerOk(entries[0].1)
    requires 0 <= i < |entries| - 1 && OkBefore(entries[1..], i)
    ensures entries[i + 1] == entries[1..][i] && OkBefore(entries, i + 1)
  {
    assert forall k :: 1 <= k < i + 1 ==> entries[k] == entries[1..][k - 1];
  }

  lemma ObjectEntriesCover(servers: Json)
    requires servers.JObject?
    ensures (forall i :: 0 <= i < |Entries(servers)| ==> ServerOk(Entries(servers)[i].1))
            <==> (forall name :: name in servers.fields ==> ServerOk(servers.fields[name]))
  {
    var fields := servers.fields;
    var names := Order.Ascend(fields.Keys);
    var es := Entries(servers);
    assert |es| == |names|;
    assert forall i :: 0 <= i < |es| ==> es[i].1 == fields[names[i]];
    if forall i :: 0 <= i < |es| ==> ServerOk(es[i].1) {
      forall name | name in fields ensures ServerOk(fields[name]) {
        var i :| 0 <= i < |names| && names[i] == name;
        assert es[i].1 == fields[name];
      }
    }
  }

  /** The entries of an array are its items, in order. */
  lemma ArrayEntriesCover(servers: Json)
    requires servers.JArray?
    ensures (forall i :: 0 <= i < |Entries(servers)| ==> ServerOk(Entries(servers)[i].1))
            <==> (forall i :: 0 <= i < |servers.items| ==> ServerOk(servers.items[i]))
  {
    assert forall i :: 0 <= i < |Entries(servers)| ==> Entries(servers)[i].1 == servers.items[i];
  }

  /** The verdict on the entries of an object or array of servers. */
  function ServersVerdict(servers: Json): (r: Verdict)
    requires servers.JObject? || servers.JArray?
    ensures r.Valid? <==> AllServersOk(servers)
    ensures r.Invalid? ==> r.failure.BadServer?
    ensures r.Invalid? ==>
      exists i :: 0 <= i < |Entries(servers)| && Entries(servers)[i].0 == r.failure.name
                  && ServerFault(Entries(servers)[i].1) == Some(r.failure.field)
                  && OkBefore(Entries(servers), i)
  {
    if servers.JObject? then ObjectEntriesCover(servers); FirstFault(Entries(servers))
    else ArrayEntriesCover(servers); FirstFault(Entries(servers))
  }

  /**
   * validateMcpConfig: the document must be a non-null object-like value whose
   * "mcpServers" is an object (or array) of well-formed server entries.
   */
  function Validate(config: Json): (r: Verdict)
    ensures r.Valid? <==> WellFormedConfig(config)
    ensures r == Invalid(NotAnObject) <==> !Truthy(config) || !TypeofObject(config)
    ensures r == Invalid(NoServersObject) <==>
      Truthy(config) && TypeofObject(config)
      && (Property(config, "mcpServers").None?
          || !Truthy(Property(config, "mcpServers").value)
          || !TypeofObject(Property(config, "mcpServers").value))
    ensures r.Invalid? && r.failure.BadServer? ==>
      var servers := config.fields["mcpServers"];
      exists i :: 0 <= i < |Entries(servers)| && Entries(servers)[i].0 == r.failure.name
                  && ServerFault(Entries(servers)[i].1) == Some(r.failure.field)
                  && OkBefore(Entries(servers), i)
  {
    if !Truthy(config) || !TypeofObject(config) then Invalid(NotAnObject)
    else
      var servers := Property(config, "mcpServers");
      if servers.None? || !Truthy(servers.value) || !TypeofObject(servers.value) then
        Invalid(NoServersObject)
      else
        ServersVerdict(servers.value)
  }

  /**
   * createDefaultMetadata: light theme, no utilisation, no active profile and
   * empty servers/tools/profiles sections; `now` is the refresh timestamp.
   */
  function CreateDefaultMetadata(now: string): (d: MetaDoc)
    ensures d.application.Some?
    ensures var app := d.application.value;
      app.theme == Some("light") && app.lastRefresh == Some(now)
      && app.contextUtilization == Some(0) && app.activeProfile.None?
    ensures d.servers == Some(map[]) && d.tools == Some(map[]) && d.profiles == Some(map[])
  {
    MetaDoc(
      Some(AppSection(Some("light"), Some(now), Some(0), None)),
      Some(map[]), Some(map[]), Some(map[]))
  }

  /** A typed configuration document passes the check exactly when it has a
      servers section whose entries all have a non-empty command and an args list. */
  lemma EncodedConfigVerdict(doc: ConfigDoc)
    ensures Validate(EncodeConfig(doc)).Valid? <==>
      doc.mcpServers.Some?
      && forall name :: name in doc.mcpServers.value ==>
           doc.mcpServers.value[name].command != "" && doc.mcpServers.value[name].args.Some?
  {
    var j := EncodeConfig(doc);
    assert Validate(j).Valid? <==> WellFormedConfig(j);
    if doc.mcpServers.Some? {
      EncodedServersWellFormed(doc.mcpServers.value);
    }
  }

  lemma EncodedServersWellFormed(servers: map<string, ConfigEntry>)
    ensures WellFormedConfig(EncodeConfig(ConfigDoc(Some(servers)))) <==>
      forall name :: name in servers ==> servers[name].command != "" && servers[name].args.Some?
  {
    var encoded := map k | k in servers :: EncodeEntry(servers[k]);
    assert EncodeConfig(ConfigDoc(Some(servers))) == JObject(map["mcpServers" := JObject(encoded)]);
    forall name | name in servers
      ensures ServerOk(encoded[name]) <==> servers[name].command != "" && servers[name].args.Some?
    {
      EncodedEntryVerdict(servers[name]);
    }
  }

  lemma EncodedEntryVerdict(e: ConfigEntry)
    ensures ServerOk(EncodeEntry(e)) <==> e.command != "" && e.args.Some?
  {
    var fields := EncodeEntry(e).fields;
    assert fields["command"] == JString(e.command);
    assert "args" in fields <==> e.args.Some?;
    assert "env" in fields ==> fields["env"].JObject?;
    assert "cwd" in fields ==> fields["cwd"].JString?;
    assert "disabled" in fields ==> fields["disabled"].JBool?;
  }

  /** An empty servers object is accepted; a document without one, or no object at all, is not. */
  lemma EmptyServersAccepted()
    ensures Validate(JObject(map["mcpServers" := JObject(map[])])) == Valid
    ensures Validate(JObject(map[])) == Invalid(NoServersObject)
    ensures Validate(JArray([])) == Invalid(NoServersObject)
    ensures Validate(JNull) == Invalid(NotAnObject)
  {
  }
}

=== FILE: wrappers.dfy ===
/** Optional values: the model's stand-in for JavaScript's `undefined`/`null`. */
module Wrappers {

  datatype Option<+T> = None | Some(value: T) {

    /** The wrapped value, or `default` when absent. */
    function GetOr(default: T): T {
      match this
      case Some(v) => v
      case None => default
    }
  }
}
